=== FILE: README.md ===
# Campus Connect: clubs, events and notices

This project models the membership and registration logic of Campus Connect, a
campus portal. It is written in Dafny, and every property listed below is
proved.

The backend is an Express service that keeps its data in Firestore. Two of its
routers are modelled:

- **Clubs** (`Backend/routes/clubs.js`):
  - An administrator creates a club.
  - A student asks to join it. Any earlier request by the same student is replaced.
  - A student leaves, which drops both their membership and their queued request.
  - An administrator lists the clubs with requests waiting, then approves or rejects each request.
- **Events** (`Backend/routes/events.js`):
  - An administrator creates an event. The required fields are checked, and the capacity goes through `parseInt`. The deadline is stored as sent. The join route reads it through `new Date` each time, and the model stores the time that reading gives. The two agree because the stored value never changes and `new Date` of the same value gives the same time.
  - A student joins an event. The checks run in this order: not found, full, deadline passed, already registered. Then a transaction re-checks capacity, increments the counter and writes one registration record.

Three React pages are modelled:

- **Clubs page**: the badge a club shows and the empty-name guard on "Join".
- **Events page**:
  - the deadline filter;
  - the join button and its "Event Full" state;
  - the login guard;
  - the in-place counter update after a successful join.
- **Notices page**: the expiry filter, then the sort by importance and newest first.

The model is built from these modules:

| module | file | what it holds |
|---|---|---|
| `Wrappers` | `wrappers.dfy` | `Option` |
| `Http` | `http.dfy` | `Failure` (status, message, `fields`) and `Result`, the route's JSON error replies |
| `Seqs` | `seqs.dfy` | `Filter` (the meaning of `Array.prototype.filter`), `Subseq`, `NoDuplicates` |
| `Js` | `js.dfy` | JavaScript semantics the code relies on (listed below) |
| `Clubs` | `clubs.dfy` | club documents, the route handlers, the club invariant |
| `Events` | `events.dfy` | event documents, registration records, the route handlers, the store invariant |
| `ClubsView`, `EventsView`, `NoticesView` | `clubs_view.dfy`, `events_view.dfy`, `notices_view.dfy` | the three pages |

The JavaScript semantics in `Js` are:

- numbers that may be NaN, where every comparison with NaN is false;
- truthiness of request-body values, arrays and objects included;
- `String(x)`, which switches to exponent form (`1e+21`) from 10^21 in magnitude;
- `parseInt`, which converts its argument to a string first;
- `new Date(x)`.

Firestore is modelled as immutable values:

- A club store is a map from document id to club.
- An event store holds a map of events and the sequence of registration records.

A request handler is a pure function from the store to `Ok(new store)` or
`Err(Failure(status, message, fields))`. A failed request writes nothing. The
ids that Firestore assigns and the current time are parameters of the
handlers.

The two invariants are:

- **Clubs** (`Clubs.WellFormed`):
  - no user is both a member and queued;
  - each user has at most one queued request;
  - the member list has no duplicates.
- **Events** (`Events.Consistent`):
  - every record names an existing event;
  - each event's counter equals its number of records;
  - the counter of an event with a non-negative numeric capacity never exceeds that capacity (a negative capacity makes the event full from the start, with its counter at 0);
  - no user holds two records for one event.

Both invariants are proved to hold after any sequence of requests.

The join route checks "Event is full" before it checks "already registered"
(`Backend/routes/events.js:143-163`). So a second join on a full event is
answered "Event is full", not as a duplicate. `Events.SecondJoinFails` and
`Events.TwoSeatScenario` state this.

## Model

| member | source | states |
|---|---|---|
| `Seqs.Filter` | Backend/routes/clubs.js:126 | `filter` keeps, in order, exactly the elements the predicate accepts. Each kept element appears as often as in the input. |
| `Clubs.ArrayUnion` | Backend/routes/clubs.js:203 | `arrayUnion` adds the user only if absent: a list that already holds the user, even more than once, comes back unchanged. Existing members keep their order. A duplicate-free list stays duplicate-free. |
| `Clubs.ArrayRemove` | Backend/routes/clubs.js:152 | `arrayRemove` drops every occurrence of the user and keeps the other members in order, each as often as before. |
| `Clubs.WithoutUserKeepsOthers` | Backend/routes/clubs.js:126 | Filtering out one user's requests leaves every other user's requests untouched. It keeps at most one request per user. |
| `Clubs.QueueRequest` | Backend/routes/clubs.js:125-131 | After a join request the user has exactly one queued entry, with the new name and email, at the end of the queue. Other users' entries and the member list are unchanged. The club invariant is kept for a non-member. |
| `Clubs.Leave` | Backend/routes/clubs.js:150-155 | After leaving, the user is neither a member nor queued. Everyone else's membership and requests are unchanged. The invariant is kept. |
| `Clubs.Approve` | Backend/routes/clubs.js:199-204 | After approval the user is a member with no queued request. Other users are unaffected. The invariant is kept. |
| `Clubs.Reject` | Backend/routes/clubs.js:222-226 | After rejection the user has no queued request. Membership and other users' requests are unchanged. The invariant is kept. |
| `Clubs.PostCreate` | Backend/routes/clubs.js:53-72 | Creation succeeds iff name, description and lead are non-empty, else 400 "Missing required fields". The new club has no members and no requests. Its image is `uploads/<file>` or empty. |
| `Clubs.PostJoin` | Backend/routes/clubs.js:108-132 | 400 for a missing user, name or email, then 404 for an unknown club, then 400 "Already a member". Otherwise the request is queued and the store invariant is kept. |
| `Clubs.PostLeave` | Backend/routes/clubs.js:142-156 | 404 for an unknown club, otherwise the leave above. |
| `Clubs.PostApprove` | Backend/routes/clubs.js:192-205 | 400 "userId required" for an empty user id, then 404, otherwise the approval above. |
| `Clubs.PostReject` | Backend/routes/clubs.js:215-227 | 400 "userId required", then 404, otherwise the rejection above. |
| `Clubs.GetPendingRequests` | Backend/routes/clubs.js:166-182 | The listing holds, in snapshot order, exactly the clubs with a non-empty request queue. |
| `Clubs.ResubmissionKeepsOneEntry` | Backend/routes/clubs.js:125-128 | Joining twice before a decision equals joining once with the second name and email. |
| `Clubs.ApproveIdempotent` | Backend/routes/clubs.js:199-204 | Approving a user twice equals approving once. |
| `Clubs.Apply` | Backend/routes/clubs.js:51-232 | Any single club request keeps the store invariant. |
| `Clubs.RunPreservesWellFormed` | Backend/routes/clubs.js:51-232 | After any sequence of club requests, no user is both member and queued. No user is queued twice, and no member is listed twice. |
| `Clubs.JoinApproveLeaveScenario` | Backend/routes/clubs.js:125-204 | Join, approve, leave on an empty club: queued, then the sole member with an empty queue, then gone. |
| `Js.Falsy` | Backend/routes/events.js:65 | Exactly six values are falsy: `undefined`, `null`, `false`, NaN, 0 and the empty string. Every array and object is truthy. |
| `Js.Decimal` | Backend/routes/events.js:78 | The plain notation of an integer: a minus sign exactly for a negative one, then decimal digits with no leading zero. |
| `Js.NumberToString` | Backend/routes/events.js:78 | `String(n)` is the plain notation below 10^21 in magnitude. From 10^21 on it starts with the leading digit, after an optional minus sign, followed by a non-digit. |
| `Js.ParseIntString` | Backend/routes/events.js:78 | `parseInt` of empty text, or of text starting with anything but white space, a sign or a digit, is NaN. A negative result needs a minus sign in the text. |
| `Js.ParseIntOfDigitPrefix` | Backend/routes/events.js:78 | `parseInt` reads the leading decimal digits and ignores the text after them, so `"50 seats"` gives 50. |
| `Js.ParseIntDecimal` | Backend/routes/events.js:78 | `parseInt` reads the plain notation of any integer back as that integer. |
| `Js.ParseInt` | Backend/routes/events.js:78 | A number below 10^21 in magnitude, or NaN, comes back unchanged. A larger one keeps only its signed leading digit. `undefined`, `null` and the booleans give NaN. |
| `Js.LargePowerOfTenReadsAsOne` | Backend/routes/events.js:78 | A capacity of 10^k with k >= 21, such as `1e21`, is read by `parseInt` as 1. |
| `Js.ToTime` | Backend/routes/events.js:149 | Strings, arrays and objects are parsed through their string form. `undefined` and NaN give NaN, `null` gives 0, and the booleans give 0 or 1. A number is itself within ±8.64e15 ms and NaN outside. |
| `Events.MissingFields` | Backend/routes/events.js:64-65 | Lists, in declaration order, exactly the required fields whose body value is falsy. It is empty iff all seven are truthy. |
| `Events.NewEvent` | Backend/routes/events.js:75-86 | A new event has no participants. A numeric capacity below 10^21, or NaN, is stored as sent. A capacity from 10^21 on is stored as its leading digit. A positive capacity means the event is not full. The deadline is the time `new Date` gives for the value sent. |
| `Events.CreatedDeadlineGovernsJoin` | Backend/routes/events.js:80-149 | A join to a newly created event, made strictly after the deadline the creating request sent, is refused as late when seats are left. A join made exactly at that deadline is not. |
| `Events.PostEvent` | Backend/routes/events.js:64-91 | Ok iff every required field is truthy. Otherwise the reply is 400 with the missing fields. The store gains exactly the new event, other events are untouched, and consistency is kept. |
| `Events.AddEvent` | Backend/routes/events.js:74-90 | Storing a new event under a fresh id adds exactly that event. Every other event and every registration record is unchanged, and consistency is kept. |
| `Events.Commit` | Backend/routes/events.js:166-188 | The transaction fails, with 500 "Event is full", iff the event is full. Otherwise the counter rises by one, only that event changes, and exactly one record is appended. |
| `Events.JoinEvent` | Backend/routes/events.js:130-193 | The replies are 404, 400 full, 400 deadline passed and 400 already registered, in that order. It succeeds iff none applies and never answers 500. On success the counter and the record count both rise by one, and the user is registered. Exactly one record is appended, and only this event's counter changes. Consistency is kept. |
| `Events.AfterJoin` | Backend/routes/events.js:128-198 | A refused join leaves the store unchanged. Every join keeps consistency. |
| `Events.DeadlineRule` | Backend/routes/events.js:149-152 | A join after the deadline is refused. A join at exactly the deadline is not refused for lateness. |
| `Events.SecondJoinFails` | Backend/routes/events.js:143-163 | A second join by the same user always fails. It is reported as a duplicate exactly when the event is neither full nor past its deadline. |
| `Events.NaNCapacityNeverFull` | Backend/routes/events.js:143-146 | With a NaN capacity every on-time first join succeeds. |
| `Events.Apply` | Backend/routes/events.js:49-198 | Any single create or join keeps the store consistent. |
| `Events.RunKeepsCapacity` | Backend/routes/events.js:143-188 | After any sequence of requests, each event with a non-negative numeric capacity has records equal to its counter and at most its capacity. No user holds two records for one event. |
| `Events.TwoSeatScenario` | Backend/routes/events.js:143-163 | Capacity two: A and B get in, C is told "Event is full", and so is A's retry. |
| `ClubsView.GetStatus` | Frontend/components/Clubs/Clubs.jsx:59-64 | The badge is "member" iff the user is listed. It is "pending" iff not a member and either queued or optimistically marked. Otherwise there is none. |
| `ClubsView.JoinName` | Frontend/components/Clubs/Clubs.jsx:35-37 | A join request is sent iff a non-empty name was typed for that club. |
| `ClubsView.StatusMatchesStanding` | Frontend/components/Clubs/Clubs.jsx:59-64 | Without optimistic marks, the badge is the backend's member, pending or outsider standing. |
| `ClubsView.SentJoinShowsPending` | Frontend/components/Clubs/Clubs.jsx:34-41 | A request the page sends is never refused for a missing name. Once accepted, the club shows "pending" both before and after the refetch. |
| `EventsView.UpcomingEvents` | Frontend/components/Events/Events.jsx:24-29 | Lists, in order, exactly the events whose deadline is strictly later than now. |
| `EventsView.ShownCapacity` | Frontend/components/Events/Events.jsx:110-116 | For a numeric capacity, the page's `>=` against the shown value is the backend's `>=`. A NaN capacity arrives as JSON `null` and is compared as 0, although the backend's `>=` against NaN is false. |
| `EventsView.JoinButton` | Frontend/components/Events/Events.jsx:109-117 | For a numeric capacity the button is disabled iff the event is full. A NaN capacity, sent as JSON `null`, always disables it. The caption follows. |
| `EventsView.WithCount` | Frontend/components/Events/Events.jsx:59-65 | Only entries with the joined id take the returned counter. Everything else and the order are unchanged. |
| `EventsView.OnJoinClick` | Frontend/components/Events/Events.jsx:42-46 | A request is sent iff there is a non-empty token. Otherwise the page shows "Please log in to join events". |
| `EventsView.ReplyOf` | Backend/routes/events.js:188-193 | The page receives a success exactly when the join succeeded. A success carries "Successfully registered for event" and the new counter. A refusal carries the failure's message. |
| `EventsView.OnJoinReply` | Frontend/components/Events/Events.jsx:58-73 | On success the counter is updated and the success message shown. Otherwise the list is unchanged and the server's message, or "Failed to join event", is shown as an error. |
| `EventsView.JoinKeepsListInSync` | Frontend/components/Events/Events.jsx:59-65 | After a successful join, the list updated in place agrees with the backend's new store. |
| `EventsView.ButtonAgreesWithBackend` | Frontend/components/Events/Events.jsx:110-116 | For a numeric capacity the button is disabled iff the backend answers "Event is full". An enabled, listed event admits any user who has not yet registered. |
| `EventsView.NaNCapacityShownFullButOpen` | Frontend/components/Events/Events.jsx:112 | An event with a NaN capacity shows "Event Full", yet the backend admits every on-time first join. |
| `NoticesView.Rank` | Frontend/components/Notices/Notices.jsx:38-39 | An importance is looked up by its string form. "high" ranks 1, "medium" 2 and "low" 3. Any other key has no rank, so its difference is NaN. |
| `NoticesView.Compare` | Frontend/components/Notices/Notices.jsx:36-46 | An unranked importance on either side gives NaN. Different ranks put the higher importance first. Equal ranks put the later creation time first, and give NaN when either time is invalid. |
| `NoticesView.CompareMeansInOrder` | Frontend/components/Notices/Notices.jsx:36-47 | On notices with a known importance and a valid creation time, the comparator sorts by importance, then newest first, and is total. |
| `NoticesView.Sort` | Frontend/components/Notices/Notices.jsx:36-47 | The sorted list is a permutation of its input. |
| `NoticesView.SortSorted` | Frontend/components/Notices/Notices.jsx:36-47 | When every notice is known, the sorted list is ordered by importance and then newest first. |
| `NoticesView.VisibleNotices` | Frontend/components/Notices/Notices.jsx:30-47 | The displayed notices are exactly the kept ones, each as often as sent. |
| `NoticesView.VisibleNoticesOrdered` | Frontend/components/Notices/Notices.jsx:30-47 | When every kept notice is known, the displayed list is in the intended order. |
| `NoticesView.KeepRule` | Frontend/components/Notices/Notices.jsx:31-35 | A notice with no deadline is always shown. Otherwise it is shown iff its deadline is strictly later than now. |

## Left out

- Firestore I/O, network errors and the generic 500 replies of each `catch` block: the store is a value, and no store call fails.
- JWT verification and the administrator gate (`verifyToken`, `verifyAdmin`) are not modelled. The authenticated user id and e-mail are inputs.
- Club request-body fields are strings. An absent field is the empty string, since both are falsy.
- The multer upload is an `Option` holding the original file name. The file itself is not stored.
- Concurrency is left out. Two joins by the same user racing past the duplicate check would both commit, but the model runs requests one after another. Within one request, the transaction's re-check is `Events.Commit`.
- Server timestamps (`createdAt`, `registeredAt`) are left out. `registeredAt` is the request time `now`.
- Parsing of date strings is engine-specific. It is a parameter `parseDate` of every member that reads dates.
- Fractional numbers and the infinities are not modelled: a number is an integer or NaN. An integer stands for itself, not for the nearest double, so a large capacity's leading digit is that of the value sent.
- `Js.ParseIntString` skips only ASCII white space, not the other Unicode space characters.
- The listings GET /clubs and GET /events are not modelled. The page's filter reads each event's stored deadline.
- An event whose deadline or date did not parse is stored as an invalid date. Listing it throws, so the whole GET /events answers 500 and the page shows only "Failed to fetch events". `EventsView.UpcomingEvents` drops just that one event instead.
- `Clubs.GetPendingRequests`: returns whole club documents. The route's projection also drops `createdBy`, which the model keeps.
- The events page shows no list when the listing fails. The notices page's check for a non-array response is left out.
- The clubs page's leave button, fetch calls and alert boxes are left out.
- `NoticesView.Sort`: stability (equal notices keep their received order) is not proved, only that the result is a permutation of the input.
- `NoticesView.SortSorted`: order is proved only when every notice has high, medium or low importance and a valid creation time. Otherwise the comparator returns NaN for some pairs. That makes it inconsistent, and the engine's order is then implementation-defined. The model uses a stable insertion sort.
- `Events.NewEvent`: for a capacity sent as a string, the contract says only what `parseInt` yields, not a closed form.

=== FILE: clubs.dfy ===
/** The club membership workflow of the backend's club routes. A club keeps a
    set-like list of member ids and an ordered queue of join requests; a user's
    standing (member, pending, outsider) is derived from those two lists and
    never stored. The document store is a map from club id to club; every
    handler re-reads the club and writes back whole fields, so each one is a
    pure function from the old store to a response. */
module Clubs {

  import opened Wrappers
  import opened Http
  import opened Seqs

  datatype PendingRequest = PendingRequest(userId: string, name: string, email: string)

  datatype Club = Club(
    name: string,
    description: string,
    lead: string,
    image: string,
    members: seq<string>,
    pendingRequests: seq<PendingRequest>,
    createdBy: string)

  type ClubStore = map<string, Club>

  /** A club read from a collection snapshot, with its document id. */
  datatype ClubDoc = ClubDoc(id: string, club: Club)

  // ---------------------------------------------------------------------------
  // Queue and member-list primitives
  // ---------------------------------------------------------------------------

  /** The request is `u`'s. */
  function IsFor(u: string): PendingRequest -> bool {
    (r: PendingRequest) => r.userId == u
  }

  /** The request is someone else's. */
  function NotFor(u: string): PendingRequest -> bool {
    (r: PendingRequest) => r.userId != u
  }

  /** The member is someone other than `u`. */
  function Differs(u: string): string -> bool {
    (v: string) => v != u
  }

  /** The entries of `queue` that belong to `u`, in queue order. */
  function EntriesFor(queue: seq<PendingRequest>, u: string): seq<PendingRequest> {
    Filter(queue, IsFor(u))
  }

  /** The queue without `u`'s entries, everybody else's in their order. */
  function WithoutUser(queue: seq<PendingRequest>, u: string): seq<PendingRequest> {
    Filter(queue, NotFor(u))
  }

  /** `u` has at least one entry in the queue. */
  predicate HasPending(queue: seq<PendingRequest>, u: string) {
    EntriesFor(queue, u) != []
  }

  /** Firestore `arrayUnion(u)` on the member list: appends `u` unless present. */
  function ArrayUnion(members: seq<string>, u: string): (r: seq<string>)
    ensures forall v :: v in r <==> v in members || v == u
    ensures members <= r && |r| <= |members| + 1
    ensures u in members ==> r == members
    ensures NoDuplicates(members) ==> NoDuplicates(r)
  {
    if u in members then members else members + [u]
  }

  /** Firestore `arrayRemove(u)` on the member list: drops every copy of `u`. */
  function ArrayRemove(members: seq<string>, u: string): (r: seq<string>)
    ensures forall v :: v in r <==> v in members && v != u
    ensures Subseq(r, members)
    ensures multiset(r) == multiset(members)[u := 0]
    ensures NoDuplicates(members) ==> NoDuplicates(r)
  {
    Filter(members, Differs(u))
  }

  /** `u` has an entry in the queue exactly when some request in it names `u`. */
  lemma HasPendingMeans(queue: seq<PendingRequest>, u: string)
    ensures HasPending(queue, u) <==> exists r :: r in queue && r.userId == u
  {
    var e := EntriesFor(queue, u);
    if e != [] {
      assert e[0] in e;
    }
  }

  /** Removing `u`'s entries removes all of them and leaves everybody else's
      entries exactly as they were. */
  lemma WithoutUserEntries(queue: seq<PendingRequest>, u: string, v: string)
    ensures EntriesFor(WithoutUser(queue, u), v) == if v == u then [] else EntriesFor(queue, v)
  {
    if v == u {
      FilterNone(WithoutUser(queue, u), IsFor(v));
    } else {
      FilterNested(queue, NotFor(u), IsFor(v));
    }
  }

  /** Appending one request adds it to its owner's entries and to nobody else's. */
  lemma EntriesAfterAppend(queue: seq<PendingRequest>, x: PendingRequest, v: string)
    ensures EntriesFor(queue + [x], v) == EntriesFor(queue, v) + (if x.userId == v then [x] else [])
  {
    FilterAppend(queue, [x], IsFor(v));
    FilterSingleton(x, IsFor(v));
  }

  // ---------------------------------------------------------------------------
  // Invariants and derived standing
  // ---------------------------------------------------------------------------

  /** At most one queued request per user. */
  ghost predicate UniquePending(queue: seq<PendingRequest>) {
    forall u :: |EntriesFor(queue, u)| <= 1
  }

  /** Nobody is both a member and waiting for approval. */
  ghost predicate Exclusive(c: Club) {
    forall r :: r in c.pendingRequests ==> r.userId !in c.members
  }

  /** The invariants every club keeps. */
  ghost predicate WellFormed(c: Club) {
    NoDuplicates(c.members) && UniquePending(c.pendingRequests) && Exclusive(c)
  }

  ghost predicate StoreWellFormed(clubs: ClubStore) {
    forall id :: id in clubs ==> WellFormed(clubs[id])
  }

  /** A user's relation to a club, derived from the two lists; membership
      takes precedence over a queued request. */
  datatype Standing = Member | Pending | Outsider

  function StandingOf(c: Club, u: string): Standing {
    if u in c.members then Member
    else if HasPending(c.pendingRequests, u) then Pending
    else Outsider
  }

  /** Removing `u`'s entries keeps the queue free of duplicate users. */
  lemma WithoutUserKeepsOthers(queue: seq<PendingRequest>, u: string)
    ensures forall v :: EntriesFor(WithoutUser(queue, u), v) == if v == u then [] else EntriesFor(queue, v)
    ensures UniquePending(queue) ==> UniquePending(WithoutUser(queue, u))
  {
    forall v
      ensures EntriesFor(WithoutUser(queue, u), v) == if v == u then [] else EntriesFor(queue, v)
    {
      WithoutUserEntries(queue, u, v);
    }
  }

  // ---------------------------------------------------------------------------
  // Club transitions
  // ---------------------------------------------------------------------------

  /** A join request: the user's earlier request, if any, is dropped and the
      new one is appended at the end of the queue. */
  function QueueRequest(c: Club, u: string, name: string, email: string): (r: Club)
    ensures r == c.(pendingRequests := r.pendingRequests)
    ensures EntriesFor(r.pendingRequests, u) == [PendingRequest(u, name, email)]
    ensures |r.pendingRequests| > 0 && r.pendingRequests[|r.pendingRequests| - 1] == PendingRequest(u, name, email)
    ensures WithoutUser(r.pendingRequests, u) == WithoutUser(c.pendingRequests, u)
    ensures forall v :: v != u ==> EntriesFor(r.pendingRequests, v) == EntriesFor(c.pendingRequests, v)
    ensures u !in c.members ==> StandingOf(r, u) == Pending
    ensures u !in c.members && WellFormed(c) ==> WellFormed(r)
  {
    var entry := PendingRequest(u, name, email);
    var kept := WithoutUser(c.pendingRequests, u);
    var r := c.(pendingRequests := kept + [entry]);
    QueueRequestEntries(c, u, entry);
    QueueRequestOthers(c, u, entry);
    QueueRequestWellFormed(c, u, entry);
    r
  }

  /** After a join request every user's entries are known: the new entry for
      `u`, the old ones for everybody else. */
  lemma QueueRequestEntries(c: Club, u: string, entry: PendingRequest)
    requires entry.userId == u
    ensures var q := WithoutUser(c.pendingRequests, u) + [entry];
      forall v :: EntriesFor(q, v) == if v == u then [entry] else EntriesFor(c.pendingRequests, v)
  {
    var kept := WithoutUser(c.pendingRequests, u);
    var q := kept + [entry];
    forall v
      ensures EntriesFor(q, v) == if v == u then [entry] else EntriesFor(c.pendingRequests, v)
    {
      EntriesAfterAppend(kept, entry, v);
      WithoutUserEntries(c.pendingRequests, u, v);
    }
  }

  /** Stripping `u` from the new queue gives back the old queue without `u`. */
  lemma QueueRequestOthers(c: Club, u: string, entry: PendingRequest)
    requires entry.userId == u
    ensures WithoutUser(WithoutUser(c.pendingRequests, u) + [entry], u) == WithoutUser(c.pendingRequests, u)
  {
    var kept := WithoutUser(c.pendingRequests, u);
    FilterAppend(kept, [entry], NotFor(u));
    FilterSingleton(entry, NotFor(u));
    FilterNested(c.pendingRequests, NotFor(u), NotFor(u));
  }

  /** A join request by a non-member keeps the club's invariants. */
  lemma QueueRequestWellFormed(c: Club, u: string, entry: PendingRequest)
    requires entry.userId == u
    ensures u !in c.members && WellFormed(c) ==>
      WellFormed(c.(pendingRequests := WithoutUser(c.pendingRequests, u) + [entry]))
  {
    if u !in c.members && WellFormed(c) {
      var q := WithoutUser(c.pendingRequests, u) + [entry];
      QueueRequestEntries(c, u, entry);
      forall v
        ensures |EntriesFor(q, v)| <= 1
      {
        assert EntriesFor(q, v) == if v == u then [entry] else EntriesFor(c.pendingRequests, v);
      }
    }
  }

  /** Leaving: the user is dropped from the members and from the queue. */
  function Leave(c: Club, u: string): (r: Club)
    ensures r == c.(members := r.members, pendingRequests := r.pendingRequests)
    ensures StandingOf(r, u) == Outsider
    ensures forall v :: v in r.members <==> v in c.members && v != u
    ensures Subseq(r.members, c.members) && Subseq(r.pendingRequests, c.pendingRequests)
    ensures forall v :: v != u ==> EntriesFor(r.pendingRequests, v) == EntriesFor(c.pendingRequests, v)
    ensures WellFormed(c) ==> WellFormed(r)
  {
    var r := c.(members := ArrayRemove(c.members, u), pendingRequests := WithoutUser(c.pendingRequests, u));
    WithoutUserKeepsOthers(c.pendingRequests, u);
    r
  }

  /** Approval: the user's request leaves the queue and the user joins the
      member list, without a duplicate if already there. */
  function Approve(c: Club, u: string): (r: Club)
    ensures r == c.(members := r.members, pendingRequests := r.pendingRequests)
    ensures StandingOf(r, u) == Member
    ensures !HasPending(r.pendingRequests, u)
    ensures forall v :: v in r.members <==> v in c.members || v == u
    ensures c.members <= r.members && |r.members| <= |c.members| + 1
    ensures NoDuplicates(c.members) ==> NoDuplicates(r.members)
    ensures Subseq(r.pendingRequests, c.pendingRequests)
    ensures forall v :: v != u ==> EntriesFor(r.pendingRequests, v) == EntriesFor(c.pendingRequests, v)
    ensures WellFormed(c) ==> WellFormed(r)
  {
    var r := c.(pendingRequests := WithoutUser(c.pendingRequests, u), members := ArrayUnion(c.members, u));
    WithoutUserKeepsOthers(c.pendingRequests, u);
    r
  }

  /** Rejection: the user's request leaves the queue; membership is untouched. */
  function Reject(c: Club, u: string): (r: Club)
    ensures r == c.(pendingRequests := r.pendingRequests)
    ensures !HasPending(r.pendingRequests, u)
    ensures StandingOf(r, u) == if u in c.members then Member else Outsider
    ensures Subseq(r.pendingRequests, c.pendingRequests)
    ensures forall v :: v != u ==> EntriesFor(r.pendingRequests, v) == EntriesFor(c.pendingRequests, v)
    ensures WellFormed(c) ==> WellFormed(r)
  {
    var r := c.(pendingRequests := WithoutUser(c.pendingRequests, u));
    WithoutUserKeepsOthers(c.pendingRequests, u);
    r
  }

  // ---------------------------------------------------------------------------
  // Route handlers
  // ---------------------------------------------------------------------------

  /** POST /clubs: an administrator creates a club with empty lists. `newId` is
      the id the store assigns to the new document; `upload` is the original
      file name of an uploaded image, if any. */
  function PostCreate(clubs: ClubStore, newId: string, adminId: string, name: string,
                      description: string, lead: string, upload: Option<string>): (r: Result<ClubStore>)
    requires newId !in clubs
    ensures r.Ok? <==> name != "" && description != "" && lead != ""
    ensures r.Err? ==> r.failure == Failure(BadRequest, "Missing required fields", [])
    ensures r.Ok? ==> r.value.Keys == clubs.Keys + {newId}
    ensures r.Ok? ==> forall id :: id in clubs ==> r.value[id] == clubs[id]
    ensures r.Ok? ==> var c := r.value[newId];
      && c.members == [] && c.pendingRequests == [] && WellFormed(c)
      && c.name == name && c.description == description && c.lead == lead && c.createdBy == adminId
      && c.image == (if upload.Some? then "uploads/" + upload.value else "")
  {
    if name == "" || description == "" || lead == "" then
      Fail(BadRequest, "Missing required fields")
    else
      var image := if upload.Some? then "uploads/" + upload.value else "";
      Ok(clubs[newId := Club(name, description, lead, image, [], [], adminId)])
  }

  /** POST /clubs/:clubId/join: checks, in order, the required fields, that
      the club exists and that the user is not already a member. */
  function PostJoin(clubs: ClubStore, clubId: string, userId: string, name: string, email: string): (r: Result<ClubStore>)
    ensures userId == "" || name == "" || email == "" ==> r == Fail(BadRequest, "Missing required fields")
    ensures userId != "" && name != "" && email != "" && clubId !in clubs ==> r == Fail(NotFoundStatus, "Club not found")
    ensures userId != "" && name != "" && email != "" && clubId in clubs && userId in clubs[clubId].members ==>
      r == Fail(BadRequest, "Already a member")
    ensures r.Ok? <==> userId != "" && name != "" && email != "" && clubId in clubs && userId !in clubs[clubId].members
    ensures r.Ok? ==> r.value == clubs[clubId := QueueRequest(clubs[clubId], userId, name, email)]
    ensures r.Ok? && StoreWellFormed(clubs) ==> StoreWellFormed(r.value)
  {
    if userId == "" || name == "" || email == "" then Fail(BadRequest, "Missing required fields")
    else if clubId !in clubs then Fail(NotFoundStatus, "Club not found")
    else if userId in clubs[clubId].members then Fail(BadRequest, "Already a member")
    else Ok(clubs[clubId := QueueRequest(clubs[clubId], userId, name, email)])
  }

  /** POST /clubs/:clubId/leave */
  function PostLeave(clubs: ClubStore, clubId: string, userId: string): (r: Result<ClubStore>)
    ensures r.Err? <==> clubId !in clubs
    ensures r.Err? ==> r == Fail(NotFoundStatus, "Club not found")
    ensures r.Ok? ==> r.value == clubs[clubId := Leave(clubs[clubId], userId)]
    ensures r.Ok? && StoreWellFormed(clubs) ==> StoreWellFormed(r.value)
  {
    if clubId !in clubs then Fail(NotFoundStatus, "Club not found")
    else Ok(clubs[clubId := Leave(clubs[clubId], userId)])
  }

  /** POST /clubs/:clubId/approve (administrators only). */
  function PostApprove(clubs: ClubStore, clubId: string, userId: string): (r: Result<ClubStore>)
    ensures userId == "" ==> r == Fail(BadRequest, "userId required")
    ensures userId != "" && clubId !in clubs ==> r == Fail(NotFoundStatus, "Club not found")
    ensures r.Ok? <==> userId != "" && clubId in clubs
    ensures r.Ok? ==> r.value == clubs[clubId := Approve(clubs[clubId], userId)]
    ensures r.Ok? && StoreWellFormed(clubs) ==> StoreWellFormed(r.value)
  {
    if userId == "" then Fail(BadRequest, "userId required")
    else if clubId !in clubs then Fail(NotFoundStatus, "Club not found")
    else Ok(clubs[clubId := Approve(clubs[clubId], userId)])
  }

  /** POST /clubs/:clubId/reject (administrators only). */
  function PostReject(clubs: ClubStore, clubId: string, userId: string): (r: Result<ClubStore>)
    ensures userId == "" ==> r == Fail(BadRequest, "userId required")
    ensures userId != "" && clubId !in clubs ==> r == Fail(NotFoundStatus, "Club not found")
    ensures r.Ok? <==> userId != "" && clubId in clubs
    ensures r.Ok? ==> r.value == clubs[clubId := Reject(clubs[clubId], userId)]
    ensures r.Ok? && StoreWellFormed(clubs) ==> StoreWellFormed(r.value)
  {
    if userId == "" then Fail(BadRequest, "userId required")
    else if clubId !in clubs then Fail(NotFoundStatus, "Club not found")
    else Ok(clubs[clubId := Reject(clubs[clubId], userId)])
  }

  /** GET /clubs/pending-requests: the clubs of a snapshot whose queue is not
      empty, in snapshot order. */
  function GetPendingRequests(snapshot: seq<ClubDoc>): (r: seq<ClubDoc>)
    ensures forall d :: d in r <==> d in snapshot && |d.club.pendingRequests| > 0
    ensures Subseq(r, snapshot)
  {
    Filter(snapshot, (d: ClubDoc) => |d.club.pendingRequests| > 0)
  }

  // ---------------------------------------------------------------------------
  // Properties across several requests
  // ---------------------------------------------------------------------------

  /** Joining twice before a decision leaves one entry, carrying the second
      request's name and email: the same queue as joining once with those. */
  lemma ResubmissionKeepsOneEntry(c: Club, u: string, name1: string, email1: string, name2: string, email2: string)
    ensures var twice := QueueRequest(QueueRequest(c, u, name1, email1), u, name2, email2);
      && EntriesFor(twice.pendingRequests, u) == [PendingRequest(u, name2, email2)]
      && twice == QueueRequest(c, u, name2, email2)
  {
    var once := QueueRequest(c, u, name1, email1);
    assert WithoutUser(once.pendingRequests, u) == WithoutUser(c.pendingRequests, u);
  }

  /** Approving the same user twice is the same as approving once. */
  lemma ApproveIdempotent(c: Club, u: string)
    ensures Approve(Approve(c, u), u) == Approve(c, u)
  {
    FilterNested(c.pendingRequests, NotFor(u), NotFor(u));
  }

  /** A request to the backend, as issued by a student or an administrator. */
  datatype Request =
    | CreateClub(newId: string, adminId: string, name: string, description: string, lead: string, upload: Option<string>)
    | JoinClub(clubId: string, userId: string, name: string, email: string)
    | LeaveClub(clubId: string, userId: string)
    | ApproveRequest(clubId: string, userId: string)
    | RejectRequest(clubId: string, userId: string)

  /** The store after one request; a rejected request writes nothing. The store
      never hands out an id it already holds, so a create with a used id does
      not occur and is treated as a no-op. */
  function Apply(clubs: ClubStore, req: Request): (r: ClubStore)
    ensures StoreWellFormed(clubs) ==> StoreWellFormed(r)
  {
    var res :=
      match req
      case CreateClub(id, admin, name, description, lead, upload) =>
        if id in clubs then Ok(clubs) else PostCreate(clubs, id, admin, name, description, lead, upload)
      case JoinClub(id, u, name, email) => PostJoin(clubs, id, u, name, email)
      case LeaveClub(id, u) => PostLeave(clubs, id, u)
      case ApproveRequest(id, u) => PostApprove(clubs, id, u)
      case RejectRequest(id, u) => PostReject(clubs, id, u);
    if res.Ok? then res.value else clubs
  }

  /** The store after a sequence of requests, in order. */
  function Run(clubs: ClubStore, reqs: seq<Request>): ClubStore
    decreases |reqs|
  {
    if |reqs| == 0 then clubs else Run(Apply(clubs, reqs[0]), reqs[1..])
  }

  /** Membership exclusivity, unique queue entries and duplicate-free member
      lists hold after any sequence of requests. */
  lemma {:induction false} RunPreservesWellFormed(clubs: ClubStore, reqs: seq<Request>)
    requires StoreWellFormed(clubs)
    ensures StoreWellFormed(Run(clubs, reqs))
    decreases |reqs|
  {
    if |reqs| > 0 {
      RunPreservesWellFormed(Apply(clubs, reqs[0]), reqs[1..]);
    }
  }

  /** A student asks to join an empty club, is approved, then leaves. */
  lemma JoinApproveLeaveScenario(c: Club, x: string, name: string, email: string)
    requires c.members == [] && c.pendingRequests == []
    ensures var asked := QueueRequest(c, x, name, email);
      var approved := Approve(asked, x);
      var left := Leave(approved, x);
      && asked.pendingRequests == [PendingRequest(x, name, email)]
      && approved.members == [x] && approved.pendingRequests == []
      && left.members == [] && left.pendingRequests == []
  {
    var asked := QueueRequest(c, x, name, email);
    assert WithoutUser(c.pendingRequests, x) == [];
    var approved := Approve(asked, x);
    assert approved.pendingRequests == [] by {
      FilterSingleton(PendingRequest(x, name, email), NotFor(x));
    }
    var left := Leave(approved, x);
    FilterSingleton(x, Differs(x));
  }
}

=== FILE: clubs_view.dfy ===
/** The decisions of the club list page: which badge a club shows for the
    signed-in user, and whether clicking "Join" sends a request. The list of
    clubs is the one the backend's club routes maintain. */
module ClubsView {

  import opened Wrappers
  import Clubs
  import Http

  /** The page's `'member'` and `'pending'`; `null` is `None`. */
  datatype Status = Member | Pending

  /** The page's test for a queued request: some entry names `u`. */
  predicate RequestListed(queue: seq<Clubs.PendingRequest>, u: string) {
    exists r :: r in queue && r.userId == u
  }

  /** `getStatus(club)` for the user in local storage (`None` when signed
      out), with `optimistic` the ids of clubs the page has marked as pending
      after sending a request. Membership wins over a queued request, which
      wins over the optimistic mark. */
  function GetStatus(club: Clubs.Club, clubId: string, userId: Option<string>, optimistic: set<string>): (r: Option<Status>)
    ensures r == Some(Member) <==> userId.Some? && userId.value in club.members
    ensures r == Some(Pending) <==>
      && (userId.None? || userId.value !in club.members)
      && ((userId.Some? && RequestListed(club.pendingRequests, userId.value)) || clubId in optimistic)
    ensures r.None? <==>
      && (userId.None? || (userId.value !in club.members && !RequestListed(club.pendingRequests, userId.value)))
      && clubId !in optimistic
  {
    if userId.Some? && userId.value in club.members then Some(Member)
    else if userId.Some? && RequestListed(club.pendingRequests, userId.value) then Some(Pending)
    else if clubId in optimistic then Some(Pending)
    else None
  }

  /** `handleJoin(clubId)`: the name typed for the club is sent only when it is
      not empty; otherwise nothing happens. */
  function JoinName(joinName: map<string, string>, clubId: string): (r: Option<string>)
    ensures r.None? <==> clubId !in joinName || joinName[clubId] == ""
    ensures r.Some? ==> r.value != "" && clubId in joinName && r.value == joinName[clubId]
  {
    if clubId in joinName && joinName[clubId] != "" then Some(joinName[clubId]) else None
  }

  /** Without optimistic marks, the badge is the user's standing as the
      backend derives it from the club's two lists. */
  lemma StatusMatchesStanding(club: Clubs.Club, clubId: string, u: string)
    ensures var s := GetStatus(club, clubId, Some(u), {});
      match Clubs.StandingOf(club, u)
      case Member => s == Some(Member)
      case Pending => s == Some(Pending)
      case Outsider => s == None
  {
    Clubs.HasPendingMeans(club.pendingRequests, u);
  }

  /** A request the page sends never trips the backend's missing-field check
      on the name, and once the backend accepts it the club shows "pending",
      both in the stale list (through the optimistic mark) and after the
      refetch. */
  lemma SentJoinShowsPending(clubs: Clubs.ClubStore, joinName: map<string, string>, clubId: string,
                             u: string, email: string, optimistic: set<string>)
    requires u != "" && email != ""
    requires JoinName(joinName, clubId).Some?
    ensures var res := Clubs.PostJoin(clubs, clubId, u, JoinName(joinName, clubId).value, email);
      && res != Http.Fail(Http.BadRequest, "Missing required fields")
      && (res.Ok? ==>
            && GetStatus(clubs[clubId], clubId, Some(u), optimistic + {clubId}) == Some(Pending)
            && GetStatus(res.value[clubId], clubId, Some(u), optimistic) == Some(Pending))
  {
    var res := Clubs.PostJoin(clubs, clubId, u, JoinName(joinName, clubId).value, email);
    if res.Ok? {
      Clubs.HasPendingMeans(res.value[clubId].pendingRequests, u);
    }
  }
}

=== FILE: events.dfy ===
/** Event creation and admission control of the backend's event routes. The
    store holds the events by id and the registration records in the order
    they were written. Joins are modelled one at a time: the transaction's
    re-read sees the state the pre-checks saw. */
module Events {

  import opened Http
  import opened Js
  import opened Seqs

  // ---------------------------------------------------------------------------
  // Data
  // ---------------------------------------------------------------------------

  datatype Event = Event(
    title: Value,
    description: Value,
    maxParticipants: Num,
    registeredParticipants: nat,
    deadline: Num,
    date: Value,
    time: Value,
    venue: Value,
    image: Value)

  datatype Registration = Registration(eventId: string, userId: string, registeredAt: int)

  datatype EventStore = EventStore(events: map<string, Event>, registrations: seq<Registration>)

  /** A JSON request body; absent keys read as `undefined`. */
  type Body = map<string, Value>

  function Field(body: Body, f: string): Value {
    if f in body then body[f] else Undefined
  }

  const RequiredFields: seq<string> :=
    ["title", "description", "maxParticipants", "deadline", "date", "time", "venue"]

  const MissingFieldsMessage: string := "Missing required fields"
  const NotFoundMessage: string := "Event not found"
  const FullMessage: string := "Event is full"
  const DeadlineMessage: string := "Registration deadline has passed"
  const AlreadyRegisteredMessage: string := "You have already registered for this event"

  /** The counter has reached the capacity; never true for a NaN capacity. */
  predicate Full(e: Event) {
    Ge(Finite(e.registeredParticipants), e.maxParticipants)
  }

  /** The deadline lies strictly before `now`; a deadline that did not parse
      (NaN) never passes. */
  predicate DeadlinePassed(e: Event, now: int) {
    Lt(e.deadline, Finite(now))
  }

  /** Number of registration records for one event, counted from the most
      recent record back. */
  function CountFor(regs: seq<Registration>, id: string): nat
    decreases |regs|
  {
    if |regs| == 0 then 0
    else CountFor(regs[..|regs| - 1], id) + (if regs[|regs| - 1].eventId == id then 1 else 0)
  }

  /** The registration query of the join route finds a record. */
  predicate Registered(regs: seq<Registration>, eventId: string, userId: string) {
    exists r :: r in regs && r.eventId == eventId && r.userId == userId
  }

  // ---------------------------------------------------------------------------
  // Invariants
  // ---------------------------------------------------------------------------

  /** At most one registration per (event, user) pair. */
  ghost predicate UniquePairs(regs: seq<Registration>) {
    forall i, j :: 0 <= i < j < |regs| ==> regs[i].eventId != regs[j].eventId || regs[i].userId != regs[j].userId
  }

  /** The counter never exceeds a numeric capacity, except that an event whose
      capacity parsed below zero still starts at zero. */
  ghost predicate WithinCapacity(e: Event) {
    e.maxParticipants.Finite? && e.registeredParticipants > 0 ==> e.registeredParticipants <= e.maxParticipants.v
  }

  /** Every registration names an existing event. */
  ghost predicate RecordsReferToEvents(s: EventStore) {
    forall r :: r in s.registrations ==> r.eventId in s.events
  }

  /** Each event's counter equals its number of registration records. */
  ghost predicate CountersMatch(s: EventStore) {
    forall id :: id in s.events ==> CountFor(s.registrations, id) == s.events[id].registeredParticipants
  }

  ghost predicate CapacityRespected(s: EventStore) {
    forall id :: id in s.events ==> WithinCapacity(s.events[id])
  }

  /** The invariant of the event store: records refer to events, counters
      match records, counters respect capacity, and no user is registered
      twice for one event. */
  ghost predicate Consistent(s: EventStore) {
    RecordsReferToEvents(s) && CountersMatch(s) && CapacityRespected(s) && UniquePairs(s.registrations)
  }

  /** One more record adds one to its event's count and nothing to the others. */
  lemma CountAfterAppend(regs: seq<Registration>, x: Registration, id: string)
    ensures CountFor(regs + [x], id) == CountFor(regs, id) + (if x.eventId == id then 1 else 0)
  {
    assert (regs + [x])[..|regs|] == regs;
  }

  /** An event id that no record mentions has a count of zero. */
  lemma {:induction false} CountOfUnused(regs: seq<Registration>, id: string)
    requires forall r :: r in regs ==> r.eventId != id
    ensures CountFor(regs, id) == 0
    decreases |regs|
  {
    if |regs| > 0 {
      var init := regs[..|regs| - 1];
      assert forall r :: r in init ==> r in regs;
      assert regs[|regs| - 1] in regs;
      CountOfUnused(init, id);
    }
  }

  // ---------------------------------------------------------------------------
  // Creating an event
  // ---------------------------------------------------------------------------

  /** Every required field of the body is truthy. */
  predicate Complete(body: Body) {
    forall f :: f in RequiredFields ==> !Falsy(Field(body, f))
  }

  /** The fields of `fields`, in order, whose body value is falsy. */
  function FalsyFields(fields: seq<string>, body: Body): (r: seq<string>)
    ensures forall f :: f in r <==> f in fields && Falsy(Field(body, f))
    ensures Subseq(r, fields)
  {
    if |fields| == 0 then []
    else
      var rest := FalsyFields(fields[1..], body);
      assert forall f :: f in fields <==> f == fields[0] || f in fields[1..];
      if Falsy(Field(body, fields[0])) then [fields[0]] + rest else rest
  }

  /** The required fields that are falsy in the body, in the order the route
      lists them. */
  function MissingFields(body: Body): (r: seq<string>)
    ensures forall f :: f in r <==> f in RequiredFields && Falsy(Field(body, f))
    ensures Subseq(r, RequiredFields)
    ensures r == [] <==> Complete(body)
  {
    var r := FalsyFields(RequiredFields, body);
    assert r != [] ==> r[0] in r;
    r
  }

  /** The stored event: capacity through `parseInt`, deadline through `new Date`,
      a falsy image stored as `null`, and no one registered yet. */
  function NewEvent(body: Body, parseDate: string -> Num): (e: Event)
    ensures e.registeredParticipants == 0
    ensures var c := Field(body, "maxParticipants");
      c.Number? && (c.n.NaN? || -ExponentThreshold < c.n.v < ExponentThreshold) ==> e.maxParticipants == c.n
    ensures var c := Field(body, "maxParticipants");
      c.Number? && c.n.Finite? && c.n.v >= ExponentThreshold ==> e.maxParticipants == Finite(LeadingDigit(c.n.v))
    ensures Field(body, "maxParticipants").Number? && Lt(Finite(0), Field(body, "maxParticipants").n) ==> !Full(e)
    ensures e.deadline == ToTime(Field(body, "deadline"), parseDate)
    ensures WithinCapacity(e)
  {
    var image := Field(body, "image");
    Event(
      Field(body, "title"),
      Field(body, "description"),
      ParseInt(Field(body, "maxParticipants")),
      0,
      ToTime(Field(body, "deadline"), parseDate),
      Field(body, "date"),
      Field(body, "time"),
      Field(body, "venue"),
      if Falsy(image) then Null else image)
  }

  /** POST /events (administrators only). `newId` is the id the store assigns. */
  function PostEvent(s: EventStore, newId: string, body: Body, parseDate: string -> Num): (r: Result<EventStore>)
    requires newId !in s.events
    ensures r.Ok? <==> Complete(body)
    ensures r.Err? ==> r.failure == Failure(BadRequest, MissingFieldsMessage, MissingFields(body))
    ensures r.Ok? ==> r.value == AddEvent(s, newId, NewEvent(body, parseDate))
    ensures r.Ok? ==> newId in r.value.events && r.value.events[newId].registeredParticipants == 0
    ensures r.Ok? && Consistent(s) ==> Consistent(r.value)
  {
    var missing := MissingFields(body);
    if |missing| > 0 then Err(Failure(BadRequest, MissingFieldsMessage, missing))
    else Ok(AddEvent(s, newId, NewEvent(body, parseDate)))
  }

  /** Adding a fresh event with no one registered keeps the store consistent. */
  function AddEvent(s: EventStore, newId: string, e: Event): (t: EventStore)
    requires newId !in s.events && e.registeredParticipants == 0
    ensures t.registrations == s.registrations
    ensures t.events.Keys == s.events.Keys + {newId} && t.events[newId] == e
    ensures forall id :: id in s.events ==> t.events[id] == s.events[id]
    ensures Consistent(s) ==> Consistent(t)
  {
    var t := EventStore(s.events[newId := e], s.registrations);
    CreatePreservesConsistent(s, newId, e);
    t
  }

  /** Adding a fresh event with a zero counter keeps a consistent store consistent. */
  lemma CreatePreservesConsistent(s: EventStore, newId: string, e: Event)
    requires newId !in s.events && e.registeredParticipants == 0
    ensures Consistent(s) ==> Consistent(EventStore(s.events[newId := e], s.registrations))
  {
    if Consistent(s) {
      CountOfUnused(s.registrations, newId);
    }
  }

  // ---------------------------------------------------------------------------
  // Joining an event
  // ---------------------------------------------------------------------------

  /** A successful join: the new store and the counter value sent back. */
  datatype Joined = Joined(store: EventStore, registeredParticipants: nat)

  /** The transaction: re-read the event, fail if it is full (surfacing as a
      500 with the error's message), otherwise bump the counter and write one
      registration record together. */
  function Commit(s: EventStore, eventId: string, userId: string, now: int): (r: Result<Joined>)
    requires eventId in s.events
    ensures r.Err? <==> Full(s.events[eventId])
    ensures r.Err? ==> r == Fail(InternalError, FullMessage)
    ensures r.Ok? ==> var e := s.events[eventId]; var t := r.value.store;
      && r.value.registeredParticipants == e.registeredParticipants + 1
      && t.events.Keys == s.events.Keys
      && t.events[eventId] == e.(registeredParticipants := r.value.registeredParticipants)
      && (forall id :: id in s.events && id != eventId ==> t.events[id] == s.events[id])
      && |t.registrations| == |s.registrations| + 1
      && s.registrations <= t.registrations
      && t.registrations[|s.registrations|] == Registration(eventId, userId, now)
  {
    var e := s.events[eventId];
    if Full(e) then Fail(InternalError, FullMessage)
    else
      var count := e.registeredParticipants + 1;
      Ok(Joined(
        EventStore(s.events[eventId := e.(registeredParticipants := count)],
                   s.registrations + [Registration(eventId, userId, now)]),
        count))
  }

  /** POST /events/:eventId/join for user `userId` at time `now`: not found,
      full, deadline passed and already registered are checked in that order
      before the transaction runs. */
  function JoinEvent(s: EventStore, eventId: string, userId: string, now: int): (r: Result<Joined>)
    ensures eventId !in s.events ==> r == Fail(NotFoundStatus, NotFoundMessage)
    ensures eventId in s.events && Full(s.events[eventId]) ==> r == Fail(BadRequest, FullMessage)
    ensures eventId in s.events && !Full(s.events[eventId]) && DeadlinePassed(s.events[eventId], now) ==>
      r == Fail(BadRequest, DeadlineMessage)
    ensures && eventId in s.events && !Full(s.events[eventId]) && !DeadlinePassed(s.events[eventId], now)
            && Registered(s.registrations, eventId, userId)
            ==> r == Fail(BadRequest, AlreadyRegisteredMessage)
    ensures r.Ok? <==> && eventId in s.events && !Full(s.events[eventId])
                       && !DeadlinePassed(s.events[eventId], now)
                       && !Registered(s.registrations, eventId, userId)
    ensures r.Err? ==> r.failure.status != InternalError
    ensures r.Ok? ==> && r.value.registeredParticipants == s.events[eventId].registeredParticipants + 1
                      && eventId in r.value.store.events
                      && r.value.store.events[eventId].registeredParticipants == r.value.registeredParticipants
                      && CountFor(r.value.store.registrations, eventId) == CountFor(s.registrations, eventId) + 1
                      && Registered(r.value.store.registrations, eventId, userId)
    ensures r.Ok? ==>
      && r.value.store.registrations == s.registrations + [Registration(eventId, userId, now)]
      && r.value.store.events ==
           s.events[eventId := s.events[eventId].(registeredParticipants := r.value.registeredParticipants)]
    ensures r.Ok? && Consistent(s) ==> Consistent(r.value.store)
  {
    if eventId !in s.events then Fail(NotFoundStatus, NotFoundMessage)
    else
      var e := s.events[eventId];
      if Full(e) then Fail(BadRequest, FullMessage)
      else if DeadlinePassed(e, now) then Fail(BadRequest, DeadlineMessage)
      else if Registered(s.registrations, eventId, userId) then Fail(BadRequest, AlreadyRegisteredMessage)
      else
        var r := Commit(s, eventId, userId, now);
        JoinFacts(s, eventId, userId, now, r.value);
        r
  }

  /** What a committed join does to the counts and the invariant. */
  lemma JoinFacts(s: EventStore, eventId: string, userId: string, now: int, j: Joined)
    requires eventId in s.events && !Full(s.events[eventId])
    requires !Registered(s.registrations, eventId, userId)
    requires Commit(s, eventId, userId, now) == Ok(j)
    ensures CountFor(j.store.registrations, eventId) == CountFor(s.registrations, eventId) + 1
    ensures Registered(j.store.registrations, eventId, userId)
    ensures Consistent(s) ==> Consistent(j.store)
  {
    var x := Registration(eventId, userId, now);
    assert j.store == Admitted(s, x);
    assert (s.registrations + [x])[|s.registrations|] == x;
    CountAfterAppend(s.registrations, x, eventId);
    AdmitConsistent(s, x);
  }

  /** The store after recording `x` and bumping its event's counter. */
  function Admitted(s: EventStore, x: Registration): EventStore
    requires x.eventId in s.events
  {
    var e := s.events[x.eventId];
    EventStore(s.events[x.eventId := e.(registeredParticipants := e.registeredParticipants + 1)],
               s.registrations + [x])
  }

  /** Recording a fresh pair and bumping its event's counter, when the event
      is not full, keeps the store consistent. */
  lemma AdmitConsistent(s: EventStore, x: Registration)
    requires x.eventId in s.events && !Full(s.events[x.eventId])
    requires !Registered(s.registrations, x.eventId, x.userId)
    ensures Consistent(s) ==> Consistent(Admitted(s, x))
  {
    if Consistent(s) {
      AdmitCounters(s, x);
      AdmitCapacity(s, x);
      UniqueAfterAppend(s.registrations, x);
    }
  }

  /** Admitting one registration to a known event keeps every counter equal to
      its event's number of records. */
  lemma AdmitCounters(s: EventStore, x: Registration)
    requires x.eventId in s.events && CountersMatch(s)
    ensures CountersMatch(Admitted(s, x))
  {
    CountsAfterAppend(s.registrations, x);
  }

  /** Admitting one registration to an event that is not full keeps every event
      within its capacity. */
  lemma AdmitCapacity(s: EventStore, x: Registration)
    requires x.eventId in s.events && !Full(s.events[x.eventId]) && CapacityRespected(s)
    ensures CapacityRespected(Admitted(s, x))
  {
    var t := Admitted(s, x);
    assert WithinCapacity(t.events[x.eventId]);
  }

  /** Counts after one more record, for every event at once. */
  lemma CountsAfterAppend(regs: seq<Registration>, x: Registration)
    ensures forall id :: CountFor(regs + [x], id) == CountFor(regs, id) + (if x.eventId == id then 1 else 0)
  {
    forall id
      ensures CountFor(regs + [x], id) == CountFor(regs, id) + (if x.eventId == id then 1 else 0)
    {
      CountAfterAppend(regs, x, id);
    }
  }

  /** A record for a pair not yet registered keeps the pairs unique. */
  lemma UniqueAfterAppend(regs: seq<Registration>, x: Registration)
    requires UniquePairs(regs) && !Registered(regs, x.eventId, x.userId)
    ensures UniquePairs(regs + [x])
  {
    var t := regs + [x];
    forall i, k | 0 <= i < k < |t|
      ensures t[i].eventId != t[k].eventId || t[i].userId != t[k].userId
    {
      if k == |t| - 1 {
        assert t[i] == regs[i] && regs[i] in regs;
      } else {
        assert t[i] == regs[i] && t[k] == regs[k];
      }
    }
  }

  /** The store after a join attempt: unchanged unless the join succeeded. */
  function AfterJoin(s: EventStore, eventId: string, userId: string, now: int): (t: EventStore)
    ensures JoinEvent(s, eventId, userId, now).Err? ==> t == s
    ensures Consistent(s) ==> Consistent(t)
  {
    var r := JoinEvent(s, eventId, userId, now);
    if r.Ok? then r.value.store else s
  }

  // ---------------------------------------------------------------------------
  // Properties across several requests
  // ---------------------------------------------------------------------------

  /** A join after the deadline fails whatever the remaining capacity, while a
      join at exactly the deadline is not refused for lateness. */
  lemma DeadlineRule(s: EventStore, eventId: string, userId: string, now: int)
    requires eventId in s.events
    ensures DeadlinePassed(s.events[eventId], now) ==> JoinEvent(s, eventId, userId, now).Err?
    ensures s.events[eventId].deadline == Finite(now) ==>
      JoinEvent(s, eventId, userId, now) != Fail(BadRequest, DeadlineMessage)
  {
  }

  /** A second join by the same user on the same event always fails; it is
      reported as a duplicate exactly when the event is neither full nor past
      its deadline, since those checks come first. */
  lemma SecondJoinFails(s: EventStore, eventId: string, userId: string, t1: int, t2: int)
    requires eventId in s.events && !Full(s.events[eventId]) && !DeadlinePassed(s.events[eventId], t1)
    requires !Registered(s.registrations, eventId, userId)
    ensures var s2 := JoinEvent(s, eventId, userId, t1).value.store;
      var second := JoinEvent(s2, eventId, userId, t2);
      && second.Err?
      && (second.failure.message == AlreadyRegisteredMessage <==>
            !Full(s2.events[eventId]) && !DeadlinePassed(s2.events[eventId], t2))
  {
  }

  /** The deadline a join checks is the one the creating request sent, read
      as a date: once the event exists, a join strictly after that instant is
      refused as late (when seats are left), and a join at that instant is not. */
  lemma CreatedDeadlineGovernsJoin(s: EventStore, newId: string, body: Body, parseDate: string -> Num,
                                   userId: string, now: int)
    requires newId !in s.events && Complete(body)
    ensures var r := PostEvent(s, newId, body, parseDate);
      var deadline := ToTime(Field(body, "deadline"), parseDate);
      && r.Ok?
      && (Lt(deadline, Finite(now)) && !Full(r.value.events[newId]) ==>
            JoinEvent(r.value, newId, userId, now) == Fail(BadRequest, DeadlineMessage))
      && (deadline == Finite(now) ==> JoinEvent(r.value, newId, userId, now) != Fail(BadRequest, DeadlineMessage))
  {
  }

  /** An event whose capacity is not a number never reports full: every
      on-time join by a user not yet registered succeeds. */
  lemma NaNCapacityNeverFull(s: EventStore, eventId: string, userId: string, now: int)
    requires eventId in s.events && s.events[eventId].maxParticipants == NaN
    requires !DeadlinePassed(s.events[eventId], now) && !Registered(s.registrations, eventId, userId)
    ensures JoinEvent(s, eventId, userId, now).Ok?
  {
  }

  /** A request to the event routes. */
  datatype Request =
    | CreateEvent(newId: string, body: Body)
    | JoinRequest(eventId: string, userId: string, now: int)

  /** The store after one request; ids the store already holds are never
      handed out again, so such a create does not occur and is a no-op. */
  function Apply(s: EventStore, req: Request, parseDate: string -> Num): (t: EventStore)
    ensures Consistent(s) ==> Consistent(t)
  {
    match req
    case CreateEvent(id, body) =>
      if id in s.events then s
      else
        var r := PostEvent(s, id, body, parseDate);
        if r.Ok? then r.value else s
    case JoinRequest(id, u, now) => AfterJoin(s, id, u, now)
  }

  function Run(s: EventStore, reqs: seq<Request>, parseDate: string -> Num): EventStore
    decreases |reqs|
  {
    if |reqs| == 0 then s else Run(Apply(s, reqs[0], parseDate), reqs[1..], parseDate)
  }

  /** After any sequence of creates and joins, starting from a consistent store:
      no event with a non-negative numeric capacity has more registration
      records than its capacity, its counter equals its number of records, and
      no user holds two registrations for one event. */
  lemma {:induction false} RunKeepsCapacity(s: EventStore, reqs: seq<Request>, parseDate: string -> Num)
    requires Consistent(s)
    ensures var t := Run(s, reqs, parseDate);
      && Consistent(t)
      && forall id :: id in t.events && t.events[id].maxParticipants.Finite? && t.events[id].maxParticipants.v >= 0 ==>
           CountFor(t.registrations, id) == t.events[id].registeredParticipants <= t.events[id].maxParticipants.v
    decreases |reqs|
  {
    if |reqs| > 0 {
      RunKeepsCapacity(Apply(s, reqs[0], parseDate), reqs[1..], parseDate);
    }
  }

  /** An event for two: A and B get in, C finds it full, and A's second attempt
      is also refused as full, because capacity is checked before duplicates. */
  lemma TwoSeatScenario(e: Event, id: string, a: string, b: string, c: string, now: int)
    requires e.maxParticipants == Finite(2) && e.registeredParticipants == 0
    requires !DeadlinePassed(e, now) && a != b
    ensures var s0 := EventStore(map[id := e], []);
      var r1 := JoinEvent(s0, id, a, now);
      && r1.Ok? && r1.value.registeredParticipants == 1
      && var r2 := JoinEvent(r1.value.store, id, b, now);
      && r2.Ok? && r2.value.registeredParticipants == 2
      && JoinEvent(r2.value.store, id, c, now) == Fail(BadRequest, FullMessage)
      && JoinEvent(r2.value.store, id, a, now) == Fail(BadRequest, FullMessage)
  {
    var s1 := EventStore(map[id := e.(registeredParticipants := 1)], [Registration(id, a, now)]);
    var s2 := EventStore(map[id := e.(registeredParticipants := 2)], [Registration(id, a, now), Registration(id, b, now)]);
    FirstOfTwoSeats(e, id, a, now);
    SecondOfTwoSeats(e, id, a, b, now);
    JoinFullEvent(s2, id, c, now);
    JoinFullEvent(s2, id, a, now);
  }

  /** The first join to an empty two-seat event takes one seat. */
  lemma FirstOfTwoSeats(e: Event, id: string, a: string, now: int)
    requires e.maxParticipants == Finite(2) && e.registeredParticipants == 0
    requires !DeadlinePassed(e, now)
    ensures JoinEvent(EventStore(map[id := e], []), id, a, now) ==
      Ok(Joined(EventStore(map[id := e.(registeredParticipants := 1)], [Registration(id, a, now)]), 1))
  {
    var s0 := EventStore(map[id := e], []);
    JoinOpenSeat(s0, id, a, now);
    assert s0.events[id := e.(registeredParticipants := 1)] == map[id := e.(registeredParticipants := 1)];
  }

  /** A second, different user takes the last seat. */
  lemma SecondOfTwoSeats(e: Event, id: string, a: string, b: string, now: int)
    requires e.maxParticipants == Finite(2) && e.registeredParticipants == 0
    requires !DeadlinePassed(e, now) && a != b
    ensures var s1 := EventStore(map[id := e.(registeredParticipants := 1)], [Registration(id, a, now)]);
      JoinEvent(s1, id, b, now) ==
        Ok(Joined(EventStore(map[id := e.(registeredParticipants := 2)],
                             [Registration(id, a, now), Registration(id, b, now)]), 2))
  {
    var e2 := e.(registeredParticipants := 2);
    var s1 := EventStore(map[id := e.(registeredParticipants := 1)], [Registration(id, a, now)]);
    JoinOpenSeat(s1, id, b, now);
    assert s1.events[id := e2] == map[id := e2];
    assert s1.registrations + [Registration(id, b, now)] == [Registration(id, a, now), Registration(id, b, now)];
  }

  /** Every join to a full event is refused as full, whoever asks and when. */
  lemma JoinFullEvent(s: EventStore, id: string, u: string, now: int)
    requires id in s.events && Full(s.events[id])
    ensures JoinEvent(s, id, u, now) == Fail(BadRequest, FullMessage)
  {
  }

  /** A join with a seat left, before the deadline and by a new user: the
      counter goes up by one and one record is appended. */
  lemma JoinOpenSeat(s: EventStore, id: string, u: string, now: int)
    requires id in s.events && !Full(s.events[id]) && !DeadlinePassed(s.events[id], now)
    requires !Registered(s.registrations, id, u)
    ensures var n := s.events[id].registeredParticipants + 1;
      JoinEvent(s, id, u, now) ==
        Ok(Joined(EventStore(s.events[id := s.events[id].(registeredParticipants := n)],
                             s.registrations + [Registration(id, u, now)]), n))
  {
  }
}

=== FILE: events_view.dfy ===
/** The decisions of the event list page: which events are listed, what the
    join button shows, what a click does, and how the list changes when the
    backend answers. Events arrive as the backend stores them, with their ids. */
module EventsView {

  import opened Wrappers
  import opened Js
  import opened Seqs
  import Http
  import Events

  datatype EventDoc = EventDoc(id: string, event: Events.Event)

  /** The event's deadline lies strictly after `now`. */
  function IsUpcoming(now: int): EventDoc -> bool {
    (d: EventDoc) => Gt(d.event.deadline, Finite(now))
  }

  /** The listed events: those whose deadline is strictly after `now`, in the
      order the backend sent them. */
  function UpcomingEvents(list: seq<EventDoc>, now: int): (r: seq<EventDoc>)
    ensures forall d :: d in r <==> d in list && d.event.deadline.Finite? && d.event.deadline.v > now
    ensures Subseq(r, list)
  {
    Filter(list, IsUpcoming(now))
  }

  /** The capacity as the page compares it. The listing reaches the page as
      JSON, where a NaN capacity becomes `null`, and `n >= null` compares `n`
      with 0. */
  function ShownCapacity(max: Num): (c: int)
    ensures max.Finite? ==> (forall n: int :: Ge(Finite(n), max) <==> n >= c)
    ensures max.NaN? ==> c == 0 && !Ge(Finite(0), max)
  {
    match max
    case Finite(v) => v
    case NaN => 0
  }

  /** The join button: disabled and labelled "Event Full" exactly when the
      counter has reached the capacity the page sees. */
  datatype Button = Button(disabled: bool, caption: string)

  function JoinButton(e: Events.Event): (b: Button)
    ensures e.maxParticipants.Finite? ==> (b.disabled <==> Events.Full(e))
    ensures e.maxParticipants.NaN? ==> b.disabled
    ensures b.caption == (if b.disabled then "Event Full" else "Join Event")
  {
    var full := e.registeredParticipants >= ShownCapacity(e.maxParticipants);
    Button(full, if full then "Event Full" else "Join Event")
  }

  /** The list after a join: the event with the given id takes the counter the
      backend returned; every other entry, and the order, stay as they were. */
  function WithCount(list: seq<EventDoc>, eventId: string, count: nat): (r: seq<EventDoc>)
    ensures |r| == |list|
    ensures forall i :: 0 <= i < |r| && list[i].id != eventId ==> r[i] == list[i]
    ensures forall i :: 0 <= i < |r| && list[i].id == eventId ==>
      r[i].id == eventId && r[i].event == list[i].event.(registeredParticipants := count)
  {
    if |list| == 0 then []
    else
      var d := list[0];
      var head := if d.id == eventId then EventDoc(d.id, d.event.(registeredParticipants := count)) else d;
      var rest := WithCount(list[1..], eventId, count);
      assert forall i :: 0 < i <= |rest| ==> ([head] + rest)[i] == rest[i - 1] && list[i] == list[1..][i - 1];
      [head] + rest
  }

  datatype MessageKind = Success | Error

  datatype Message = Message(text: string, kind: MessageKind)

  /** What a click on "Join" does before any request. */
  datatype Click = Prompt(message: Message) | SendJoin(eventId: string)

  /** Without a token (absent or empty) nothing is sent and the page asks the
      user to log in. */
  function OnJoinClick(token: Option<string>, eventId: string): (c: Click)
    ensures c.SendJoin? <==> token.Some? && token.value != ""
    ensures c.SendJoin? ==> c.eventId == eventId
    ensures c.Prompt? ==> c.message == Message("Please log in to join events", Error)
  {
    if token.None? || token.value == "" then Prompt(Message("Please log in to join events", Error))
    else SendJoin(eventId)
  }

  /** The answer to a join request as the page sees it. */
  datatype Reply = Registered(message: string, count: nat) | Refused(message: string) | NoReply

  /** The message the join route sends with a successful registration. */
  const SuccessMessage := "Successfully registered for event"

  /** The backend's answer in the page's terms: a success carries the fixed
      success message and the new counter, a refusal the failure's message. */
  function ReplyOf(r: Http.Result<Events.Joined>): (rep: Reply)
    ensures rep.Registered? <==> r.Ok?
    ensures rep.Registered? ==> rep.message == SuccessMessage && rep.count == r.value.registeredParticipants
    ensures rep.Refused? ==> rep.message == r.failure.message
    ensures !rep.NoReply?
  {
    match r
    case Ok(j) => Registered(SuccessMessage, j.registeredParticipants)
    case Err(f) => Refused(f.message)
  }

  /** The page after an answer: on success the list takes the new count and a
      success message; otherwise the list is unchanged and the server's
      message, or a generic one, is shown as an error. */
  function OnJoinReply(list: seq<EventDoc>, eventId: string, reply: Reply): (r: (seq<EventDoc>, Message))
    ensures reply.Registered? ==> r == (WithCount(list, eventId, reply.count), Message(reply.message, Success))
    ensures !reply.Registered? ==> r.0 == list && r.1.kind == Error
    ensures reply.Refused? && reply.message != "" ==> r.1.text == reply.message
    ensures reply.NoReply? || (reply.Refused? && reply.message == "") ==> r.1.text == "Failed to join event"
  {
    match reply
    case Registered(m, count) => (WithCount(list, eventId, count), Message(m, Success))
    case Refused(m) => (list, Message(if m != "" then m else "Failed to join event", Error))
    case NoReply => (list, Message("Failed to join event", Error))
  }

  /** The listed entries agree with the backend's store. */
  ghost predicate Mirrors(list: seq<EventDoc>, s: Events.EventStore) {
    forall i :: 0 <= i < |list| ==> list[i].id in s.events && list[i].event == s.events[list[i].id]
  }

  /** After a successful join, updating the list with the returned counter
      gives exactly what a refetch of the store would show. */
  lemma JoinKeepsListInSync(list: seq<EventDoc>, s: Events.EventStore, eventId: string, userId: string, now: int)
    requires Mirrors(list, s)
    requires eventId in s.events && !Events.Full(s.events[eventId]) && !Events.DeadlinePassed(s.events[eventId], now)
    requires !Events.Registered(s.registrations, eventId, userId)
    ensures var j := Events.JoinEvent(s, eventId, userId, now).value;
      Mirrors(OnJoinReply(list, eventId, ReplyOf(Events.JoinEvent(s, eventId, userId, now))).0, j.store)
  {
    var j := Events.JoinEvent(s, eventId, userId, now).value;
    var r := WithCount(list, eventId, j.registeredParticipants);
    forall i | 0 <= i < |r|
      ensures r[i].id in j.store.events && r[i].event == j.store.events[r[i].id]
    {
      if list[i].id == eventId {
        assert j.store.events[eventId] == s.events[eventId].(registeredParticipants := j.registeredParticipants);
      }
    }
  }

  /** With a numeric capacity, the button is disabled exactly when the
      backend would turn the join away as full, and a listed event with an
      enabled button admits any user who has not registered yet. */
  lemma ButtonAgreesWithBackend(s: Events.EventStore, eventId: string, userId: string, now: int)
    requires eventId in s.events
    ensures s.events[eventId].maxParticipants.Finite? ==>
      (JoinButton(s.events[eventId]).disabled <==>
       Events.JoinEvent(s, eventId, userId, now) == Http.Fail(Http.BadRequest, Events.FullMessage))
    ensures && Gt(s.events[eventId].deadline, Finite(now))
            && !JoinButton(s.events[eventId]).disabled
            && !Events.Registered(s.registrations, eventId, userId)
            ==> Events.JoinEvent(s, eventId, userId, now).Ok?
  {
  }

  /** An event created with a non-numeric capacity is shown as full, yet the
      backend admits every user who asks before the deadline. */
  lemma NaNCapacityShownFullButOpen(s: Events.EventStore, eventId: string, userId: string, now: int)
    requires eventId in s.events && s.events[eventId].maxParticipants.NaN?
    ensures JoinButton(s.events[eventId]) == Button(true, "Event Full")
    ensures !Events.DeadlinePassed(s.events[eventId], now) && !Events.Registered(s.registrations, eventId, userId)
      ==> Events.JoinEvent(s, eventId, userId, now).Ok?
  {
  }
}

=== FILE: http.dfy ===
/** Response shapes shared by the route handlers. A handler either succeeds with
    a value or answers with an HTTP status, a message and, for validation
    errors, the list of offending fields. A failure never carries a new state:
    a rejected request writes nothing to the store. */
module Http {

  datatype Failure = Failure(status: int, message: string, fields: seq<string>)

  datatype Result<+T> = Ok(value: T) | Err(failure: Failure)

  const BadRequest: int := 400
  const NotFoundStatus: int := 404
  const InternalError: int := 500

  /** A failure without a field list. */
  function Fail<T>(status: int, message: string): Result<T> {
    Err(Failure(status, message, []))
  }
}

=== FILE: js.dfy ===
/** The slice of JavaScript value semantics the routes and views depend on:
    numbers that may be NaN, truthiness of request-body values, `parseInt`
    and the one-argument `Date` constructor. Numbers are integers or NaN;
    fractional numbers and the infinities are not modelled, and an integer
    stands for itself, not for the nearest double. */
module Js {

  /** A JavaScript number: an integer or NaN. */
  datatype Num = Finite(v: int) | NaN

  /** `a < b`: every comparison involving NaN is false. */
  predicate Lt(a: Num, b: Num) {
    a.Finite? && b.Finite? && a.v < b.v
  }

  /** `a > b`. */
  predicate Gt(a: Num, b: Num) {
    Lt(b, a)
  }

  /** `a >= b`: also false when either side is NaN. */
  predicate Ge(a: Num, b: Num) {
    a.Finite? && b.Finite? && a.v >= b.v
  }

  /** A value read from a JSON request body or a stored document. `Undefined`
      is an absent key; `Composite` is an array or an object, carried as the
      string that converting it to a string yields (`"5"` for `[5]`,
      `"[object Object]"` for `{}`). */
  datatype Value = Undefined | Null | Bool(b: bool) | Number(n: Num) | Str(s: string) | Composite(text: string)

  /** JavaScript truthiness (`!x`): exactly six values are falsy, and every
      array and object is truthy. */
  predicate Falsy(x: Value)
    ensures Falsy(x) <==> x in {Undefined, Null, Bool(false), Number(NaN), Number(Finite(0)), Str("")}
  {
    match x
    case Undefined => true
    case Null => true
    case Bool(b) => !b
    case Number(n) => n == NaN || n == Finite(0)
    case Str(s) => s == ""
    case Composite(_) => false
  }

  // ---------------------------------------------------------------------------
  // Number to string and back
  // ---------------------------------------------------------------------------

  /** White space skipped by `parseInt` (the ASCII subset). */
  predicate IsSpace(c: char) {
    c == ' ' || '\t' <= c <= '\r'
  }

  /** Value of a digit character in radix up to 36; 36 for any other character. */
  function DigitValue(c: char): (d: nat)
    ensures d <= 36
    ensures d < 10 <==> '0' <= c <= '9'
  {
    if '0' <= c <= '9' then (c as int - '0' as int)
    else if 'a' <= c <= 'z' then (c as int - 'a' as int) + 10
    else if 'A' <= c <= 'Z' then (c as int - 'A' as int) + 10
    else 36
  }

  /** The decimal digit character for `d`. */
  function DigitChar(d: nat): (c: char)
    requires d < 10
    ensures DigitValue(c) == d
  {
    ('0' as int + d) as char
  }

  /** `String(n)` for a non-negative integer: its decimal digits, most significant first. */
  function Digits(n: nat): (s: string)
    ensures |s| >= 1
    ensures forall i :: 0 <= i < |s| ==> DigitValue(s[i]) < 10
    ensures |s| > 1 ==> s[0] != '0'
    decreases n
  {
    if n < 10 then [DigitChar(n)] else Digits(n / 10) + [DigitChar(n % 10)]
  }

  /** The plain notation of an integer: a minus sign for a negative one, then
      its decimal digits without leading zeros. */
  function Decimal(n: int): (s: string)
    ensures |s| >= 1 && (s[0] == '-' <==> n < 0)
    ensures var sign := if n < 0 then 1 else 0;
      && |s| > sign
      && (forall i :: sign <= i < |s| ==> DigitValue(s[i]) < 10)
      && (|s| > sign + 1 ==> s[sign] != '0')
  {
    if n < 0 then "-" + Digits(-n) else Digits(n)
  }

  /** 10^21: from this magnitude on, numbers are written in exponent form. */
  const ExponentThreshold: int := 1_000_000_000_000_000_000_000

  /** The first decimal digit of `m`. */
  function LeadingDigit(m: nat): (d: nat)
    ensures d < 10 && (m > 0 ==> d > 0)
  {
    if m < 10 then m else LeadingDigit(m / 10)
  }

  /** `m` with its trailing zeros removed. */
  function Significand(m: nat): (r: nat)
    requires m > 0
    ensures r > 0 && r % 10 != 0
    ensures LeadingDigit(r) == LeadingDigit(m)
  {
    if m % 10 == 0 then Significand(m / 10) else m
  }

  /** The exponent form of a positive integer: its significant digits, with
      a point after the first when there are more, then `e+` and the power of
      ten of the first digit (`1e+21`, `1.5e+22`). */
  function Exponent(m: nat): (s: string)
    requires m > 0
    ensures |s| >= 2 && DigitValue(s[0]) == LeadingDigit(m) && DigitValue(s[1]) >= 10
  {
    var sig := Digits(Significand(m));
    LeadingDigitOfDigits(Significand(m));
    var mantissa := if |sig| == 1 then sig else [sig[0]] + "." + sig[1..];
    mantissa + "e+" + Digits(|Digits(m)| - 1)
  }

  /** `String(n)` for a number: plain notation below 10^21 in magnitude,
      exponent form from there on. */
  function NumberToString(n: Num): (s: string)
    ensures n.Finite? && -ExponentThreshold < n.v < ExponentThreshold ==> s == Decimal(n.v)
    ensures n.Finite? && n.v >= ExponentThreshold ==>
      |s| >= 2 && DigitValue(s[0]) == LeadingDigit(n.v) && DigitValue(s[1]) >= 10
    ensures n.Finite? && n.v <= -ExponentThreshold ==>
      |s| >= 3 && s[0] == '-' && DigitValue(s[1]) == LeadingDigit(-n.v) && DigitValue(s[2]) >= 10
  {
    match n
    case NaN => "NaN"
    case Finite(v) =>
      if -ExponentThreshold < v < ExponentThreshold then Decimal(v)
      else if v < 0 then "-" + Exponent(-v)
      else Exponent(v)
  }

  /** `String(x)`, which is also the property key `x` looks up. */
  function ToString(x: Value): string {
    match x
    case Undefined => "undefined"
    case Null => "null"
    case Bool(b) => if b then "true" else "false"
    case Number(n) => NumberToString(n)
    case Str(s) => s
    case Composite(t) => t
  }

  /** The first character of the digits of `n` is its leading digit. */
  lemma {:induction false} LeadingDigitOfDigits(n: nat)
    ensures DigitValue(Digits(n)[0]) == LeadingDigit(n)
    decreases n
  {
    if n >= 10 {
      LeadingDigitOfDigits(n / 10);
      assert Digits(n)[0] == Digits(n / 10)[0];
    }
  }

  /** The longest prefix of `s` that consists of leading white space. */
  function TrimStart(s: string): (r: string)
    ensures |r| <= |s| && r == s[|s| - |r|..]
    ensures forall i :: 0 <= i < |s| - |r| ==> IsSpace(s[i])
    ensures |r| > 0 ==> !IsSpace(r[0])
  {
    if |s| > 0 && IsSpace(s[0]) then TrimStart(s[1..]) else s
  }

  /** Length of the longest prefix of `s` made of digits of the given radix. */
  function DigitRun(s: string, radix: nat): (k: nat)
    ensures k <= |s|
    ensures forall i :: 0 <= i < k ==> DigitValue(s[i]) < radix
    ensures k < |s| ==> DigitValue(s[k]) >= radix
  {
    if |s| == 0 || DigitValue(s[0]) >= radix then 0 else 1 + DigitRun(s[1..], radix)
  }

  /** Value of a run of digits in the given radix, most significant first. */
  function DigitsValue(d: string, radix: nat): nat
    decreases |d|
  {
    if |d| == 0 then 0
    else DigitsValue(d[..|d| - 1], radix) * radix + DigitValue(d[|d| - 1])
  }

  /** The unsigned part of `parseInt`: an optional `0x` prefix selecting
      radix 16, then the longest run of digits; NaN when that run is empty. */
  function ParseMagnitude(u: string): (r: Num)
    ensures r.Finite? ==> r.v >= 0
  {
    var hex := |u| >= 2 && u[0] == '0' && (u[1] == 'x' || u[1] == 'X');
    var radix := if hex then 16 else 10;
    var digits := if hex then u[2..] else u;
    var k := DigitRun(digits, radix);
    if k == 0 then NaN else Finite(DigitsValue(digits[..k], radix))
  }

  /** The text after an optional leading sign. */
  function Unsigned(t: string): (u: string)
    ensures |u| <= |t|
  {
    if |t| > 0 && (t[0] == '-' || t[0] == '+') then t[1..] else t
  }

  /** The magnitude with the sign applied; NaN stays NaN. */
  function ApplySign(negative: bool, m: Num): (r: Num)
    ensures r.NaN? <==> m.NaN?
  {
    match m
    case NaN => NaN
    case Finite(v) => Finite(if negative then -v else v)
  }

  /** `parseInt(s)` with no radix: leading white space, an optional sign, then
      the unsigned part. Text that is empty, or that starts with anything but
      white space, a sign or a digit, reads as NaN. */
  function ParseIntString(s: string): (r: Num)
    ensures s == "" ==> r.NaN?
    ensures |s| > 0 && !IsSpace(s[0]) && s[0] != '-' && s[0] != '+' && DigitValue(s[0]) >= 10 ==> r.NaN?
    ensures r.Finite? && r.v < 0 ==> exists i :: 0 <= i < |s| && s[i] == '-'
  {
    var t := TrimStart(s);
    assert |t| > 0 ==> t[0] == s[|s| - |t|];
    ApplySign(|t| > 0 && t[0] == '-', ParseMagnitude(Unsigned(t)))
  }

  /** `parseInt(x)`: the argument is first converted to a string. A number
      below 10^21 in magnitude (or NaN) comes back unchanged; a larger one is
      written in exponent form and only its first digit is read; `undefined`,
      `null` and the booleans read as NaN. */
  function ParseInt(x: Value): (r: Num)
    ensures x.Number? && (x.n.NaN? || -ExponentThreshold < x.n.v < ExponentThreshold) ==> r == x.n
    ensures x.Number? && x.n.Finite? && x.n.v >= ExponentThreshold ==> r == Finite(LeadingDigit(x.n.v))
    ensures x.Number? && x.n.Finite? && x.n.v <= -ExponentThreshold ==> r == Finite(-(LeadingDigit(-x.n.v) as int))
    ensures x.Undefined? || x.Null? || x.Bool? ==> r.NaN?
    ensures x.Str? || x.Composite? ==> r == ParseIntString(ToString(x))
  {
    if x.Number? then
      ParseIntOfNumber(x.n);
      ParseIntString(NumberToString(x.n))
    else if x.Str? || x.Composite? then
      ParseIntString(ToString(x))
    else
      ParseIntOfKeyword(x);
      ParseIntString(ToString(x))
  }

  /** Reading back the decimal digits of `n` gives `n`. */
  lemma {:induction false} DigitsValueOfDigits(n: nat)
    ensures DigitsValue(Digits(n), 10) == n
    decreases n
  {
    var s := Digits(n);
    if n >= 10 {
      assert s[..|s| - 1] == Digits(n / 10);
      DigitsValueOfDigits(n / 10);
    } else {
      assert s[..0] == [];
    }
  }

  /** The decimal digits of `m` read back as `m`. */
  lemma MagnitudeOfDigits(m: nat)
    ensures ParseMagnitude(Digits(m)) == Finite(m)
  {
    var d := Digits(m);
    DigitsValueOfDigits(m);
    assert DigitRun(d, 10) == |d|;
    assert d[..|d|] == d;
  }

  /** Text that starts with a non-space character is its own trimmed form. */
  lemma TrimStartNoSpace(t: string)
    requires |t| > 0 && !IsSpace(t[0])
    ensures TrimStart(t) == t
  {
  }

  /** A run of decimal digits reads as its magnitude. */
  lemma ParseIntOfDigitString(d: string, m: nat)
    requires |d| > 0 && DigitValue(d[0]) < 10
    requires ParseMagnitude(d) == Finite(m)
    ensures ParseIntString(d) == Finite(m)
  {
    TrimStartNoSpace(d);
    assert Unsigned(d) == d;
  }

  /** A minus sign followed by a run of decimal digits reads as the negated
      magnitude. */
  lemma ParseIntOfNegatedDigitString(d: string, m: nat)
    requires ParseMagnitude(d) == Finite(m)
    ensures ParseIntString("-" + d) == Finite(-(m as int))
  {
    var t := "-" + d;
    TrimStartNoSpace(t);
    assert t[1..] == d;
    assert Unsigned(t) == d;
  }

  /** The digit run at the start of `d + rest` is exactly `d` when `rest` does
      not start with a digit of the radix. */
  lemma {:induction false} DigitRunOfPrefix(d: string, rest: string, radix: nat)
    requires forall i :: 0 <= i < |d| ==> DigitValue(d[i]) < radix
    requires rest == [] || DigitValue(rest[0]) >= radix
    ensures DigitRun(d + rest, radix) == |d|
    decreases |d|
  {
    if |d| > 0 {
      assert (d + rest)[1..] == d[1..] + rest;
      DigitRunOfPrefix(d[1..], rest, radix);
    } else {
      assert d + rest == rest;
    }
  }

  /** `parseInt` reads the leading decimal digits and ignores whatever text
      follows them: `parseInt("50 seats")` is 50 and `parseInt("007 seats")`
      is 7. Only a lone `0` followed by `x` starts a hexadecimal number. */
  lemma ParseIntOfDigitPrefix(d: string, rest: string)
    requires |d| > 0 && forall i :: 0 <= i < |d| ==> DigitValue(d[i]) < 10
    requires rest == [] || DigitValue(rest[0]) >= 10
    requires !(d == "0" && rest != [] && (rest[0] == 'x' || rest[0] == 'X'))
    ensures ParseIntString(d + rest) == Finite(DigitsValue(d, 10))
  {
    var u := d + rest;
    assert !(|u| >= 2 && u[0] == '0' && (u[1] == 'x' || u[1] == 'X')) by {
      if |d| >= 2 {
        assert u[1] == d[1];
      } else if |u| >= 2 && u[0] == '0' {
        assert d == "0" && u[1] == rest[0];
      }
    }
    DigitRunOfPrefix(d, rest, 10);
    assert u[..|d|] == d;
    ParseIntOfDigitString(u, DigitsValue(d, 10));
  }

  /** `String(n)` of a non-negative `n` is its digits, read back as `n`. */
  lemma ParseIntNonNegative(n: int)
    requires n >= 0
    ensures ParseIntString(Decimal(n)) == Finite(n)
  {
    var d := Digits(n);
    MagnitudeOfDigits(n);
    ParseIntOfDigitString(d, n);
  }

  /** `String(n)` of a negative `n` is a minus sign and the digits of `-n`,
      read back as `n`. */
  lemma ParseIntNegative(n: int)
    requires n < 0
    ensures ParseIntString(Decimal(n)) == Finite(n)
  {
    var m: nat := -n;
    var d := Digits(m);
    assert Decimal(n) == "-" + d;
    MagnitudeOfDigits(m);
    ParseIntOfNegatedDigitString(d, m);
    assert -(m as int) == n;
  }

  /** `parseInt(String(n)) == n` for every integer `n`. */
  lemma ParseIntDecimal(n: int)
    ensures ParseIntString(Decimal(n)) == Finite(n)
  {
    if n < 0 {
      ParseIntNegative(n);
    } else {
      ParseIntNonNegative(n);
    }
  }

  /** The first digit of a run of digits, followed by text that is not a
      digit, reads as that digit. */
  lemma ParseMagnitudeOfLeadingDigit(s: string)
    requires |s| >= 2 && 0 < DigitValue(s[0]) < 10 && DigitValue(s[1]) >= 10
    ensures ParseMagnitude(s) == Finite(DigitValue(s[0]))
  {
    assert s[1..][0] == s[1];
    assert DigitRun(s[1..], 10) == 0;
    assert DigitRun(s, 10) == 1;
    var d := s[..1];
    assert d[..0] == [] && d[0] == s[0];
    assert DigitsValue(d, 10) == DigitValue(s[0]);
  }

  /** A number at or above 10^21 in magnitude reads as its signed first digit. */
  lemma ParseIntOfExponentForm(v: int)
    requires v >= ExponentThreshold || v <= -ExponentThreshold
    ensures ParseIntString(NumberToString(Finite(v))) ==
      Finite(if v > 0 then LeadingDigit(v) else -(LeadingDigit(-v) as int))
  {
    var s := NumberToString(Finite(v));
    if v > 0 {
      ParseMagnitudeOfLeadingDigit(s);
      ParseIntOfDigitString(s, LeadingDigit(v));
    } else {
      var u := s[1..];
      assert u[0] == s[1] && u[1] == s[2];
      ParseMagnitudeOfLeadingDigit(u);
      assert s == "-" + u;
      ParseIntOfNegatedDigitString(u, LeadingDigit(-v));
    }
  }

  /** `parseInt` of a finite integer's text gives the integer back below 10^21
      in magnitude, and its signed leading digit from there on. */
  lemma ParseIntOfFinite(v: int)
    ensures ParseIntString(NumberToString(Finite(v))) ==
      if -ExponentThreshold < v < ExponentThreshold then Finite(v)
      else if v > 0 then Finite(LeadingDigit(v))
      else Finite(-(LeadingDigit(-v) as int))
  {
    if -ExponentThreshold < v < ExponentThreshold {
      ParseIntDecimal(v);
    } else {
      ParseIntOfExponentForm(v);
    }
  }

  /** The words `parseInt` meets for `undefined`, `null`, the booleans and
      NaN start with a letter, so they read as NaN. */
  lemma ParseIntOfKeyword(x: Value)
    requires x.Undefined? || x.Null? || x.Bool? || x == Number(NaN)
    ensures ParseIntString(ToString(x)).NaN?
  {
    var s := ToString(x);
    assert |s| > 0 && DigitValue(s[0]) >= 10 && !IsSpace(s[0]) && s[0] != '-' && s[0] != '+' by {
      match x
      case Undefined => assert s[0] == 'u';
      case Null => assert s[0] == 'n';
      case Bool(b) => assert s[0] == (if b then 't' else 'f');
      case Number(_) => assert s[0] == 'N';
    }
  }

  /** `parseInt` of the string form of a number. */
  lemma ParseIntOfNumber(n: Num)
    ensures n.NaN? || -ExponentThreshold < n.v < ExponentThreshold ==> ParseIntString(NumberToString(n)) == n
    ensures n.Finite? && n.v >= ExponentThreshold ==> ParseIntString(NumberToString(n)) == Finite(LeadingDigit(n.v))
    ensures n.Finite? && n.v <= -ExponentThreshold ==>
      ParseIntString(NumberToString(n)) == Finite(-(LeadingDigit(-n.v) as int))
  {
    match n
    case NaN =>
      ParseIntOfKeyword(Number(NaN));
    case Finite(v) =>
      ParseIntOfFinite(v);
  }

  /** A capacity sent as a power of ten from 10^21 on is stored as one seat. */
  lemma LargePowerOfTenReadsAsOne(k: nat)
    requires k >= 21
    ensures ParseInt(Number(Finite(Pow10(k)))) == Finite(1)
  {
    Pow10OfThreshold();
    Pow10Monotone(21, k);
    LeadingDigitOfPow10(k);
  }

  /** The exponent-notation threshold is exactly 10^21. */
  lemma Pow10OfThreshold()
    ensures Pow10(21) == ExponentThreshold
  {
    Pow10Sum(7, 7);
    Pow10Sum(14, 7);
    assert Pow10(7) == 10_000_000;
  }

  /** Powers of ten multiply by adding their exponents. */
  lemma {:induction false} Pow10Sum(a: nat, b: nat)
    ensures Pow10(a + b) == Pow10(a) * Pow10(b)
    decreases b
  {
    if b > 0 {
      Pow10Sum(a, b - 1);
      assert Pow10(a + b) == 10 * Pow10(a + b - 1);
    }
  }

  /** 10^k. */
  function Pow10(k: nat): (p: nat)
    ensures p > 0 && (k > 0 ==> p % 10 == 0)
  {
    if k == 0 then 1 else 10 * Pow10(k - 1)
  }

  /** A larger exponent gives a power of ten at least as large. */
  lemma {:induction false} Pow10Monotone(j: nat, k: nat)
    requires j <= k
    ensures Pow10(j) <= Pow10(k)
    decreases k
  {
    if j < k {
      Pow10Monotone(j, k - 1);
    }
  }

  /** Every power of ten is written with a leading 1. */
  lemma {:induction false} LeadingDigitOfPow10(k: nat)
    ensures LeadingDigit(Pow10(k)) == 1
  {
    if k > 0 {
      LeadingDigitOfPow10(k - 1);
      assert Pow10(k) / 10 == Pow10(k - 1);
    }
  }

  // ---------------------------------------------------------------------------
  // Dates
  // ---------------------------------------------------------------------------

  /** Largest magnitude of a valid time value, in milliseconds. */
  const MaxTime: int := 8_640_000_000_000_000

  /** `new Date(x).getTime()`. A string goes through the engine's date parser,
      which is not modelled and is passed in as `parseDate`; any other value is
      converted to a number first, and out-of-range times are NaN. An array or
      object is converted to its string form and parsed. */
  function ToTime(x: Value, parseDate: string -> Num): (t: Num)
    ensures t.Finite? && !x.Str? && !x.Composite? ==> -MaxTime <= t.v <= MaxTime
    ensures x.Str? || x.Composite? ==> t == parseDate(ToString(x))
    ensures x.Undefined? ==> t.NaN?
    ensures x.Null? ==> t == Finite(0)
    ensures x.Bool? ==> t == Finite(if x.b then 1 else 0)
    ensures x.Number? && x.n.Finite? ==> (t.Finite? <==> -MaxTime <= x.n.v <= MaxTime) && (t.Finite? ==> t == x.n)
    ensures x == Number(NaN) ==> t.NaN?
  {
    match x
    case Str(s) => parseDate(s)
    case Composite(text) => parseDate(text)
    case Undefined => NaN
    case Null => Finite(0)
    case Bool(b) => Finite(if b then 1 else 0)
    case Number(NaN) => NaN
    case Number(Finite(v)) => if -MaxTime <= v <= MaxTime then Finite(v) else NaN
  }
}

=== FILE: notices_view.dfy ===
/** The notice board's list pipeline: notices whose deadline has passed are
    dropped, and the rest are ordered by importance, then newest first, with
    the comparator the page passes to `Array.prototype.sort`. */
module NoticesView {

  import opened Js
  import opened Seqs

  /** A notice as the backend returns it; fields may be absent (`Undefined`). */
  datatype Notice = Notice(id: string, title: string, importance: Value, createdAt: Value, deadline: Value)

  // ---------------------------------------------------------------------------
  // Filter
  // ---------------------------------------------------------------------------

  /** A notice stays listed when it has no deadline (any falsy value) or when
      its deadline, read as a date, is strictly after `now`. */
  predicate Keep(n: Notice, now: int, parseDate: string -> Num) {
    Falsy(n.deadline) || Gt(ToTime(n.deadline, parseDate), Finite(now))
  }

  function KeepAt(now: int, parseDate: string -> Num): Notice -> bool {
    (n: Notice) => Keep(n, now, parseDate)
  }

  // ---------------------------------------------------------------------------
  // Comparator
  // ---------------------------------------------------------------------------

  /** The rank of an importance in the page's lookup table: 1, 2, 3 for
      "high", "medium", "low". The value is looked up by its string form, so
      `["high"]` ranks like "high"; no number, boolean, `null` or `undefined`
      spells a rank, and a key the table lacks finds no number, which the
      subtraction turns into NaN. */
  function Rank(importance: Value): (r: Num)
    ensures r.Finite? ==> 1 <= r.v <= 3
    ensures importance in {Str("high"), Composite("high")} ==> r == Finite(1)
    ensures importance in {Str("medium"), Composite("medium")} ==> r == Finite(2)
    ensures importance in {Str("low"), Composite("low")} ==> r == Finite(3)
    ensures r.Finite? ==> importance in {Str("high"), Str("medium"), Str("low"),
                                          Composite("high"), Composite("medium"), Composite("low")}
  {
    match importance
    case Str(key) => RankOfKey(key)
    case Composite(key) => RankOfKey(key)
    case _ => NaN
  }

  function RankOfKey(key: string): Num {
    if key == "high" then Finite(1)
    else if key == "medium" then Finite(2)
    else if key == "low" then Finite(3)
    else NaN
  }

  /** `a - b` on numbers. */
  function Sub(a: Num, b: Num): (r: Num)
    ensures r.Finite? <==> a.Finite? && b.Finite?
    ensures r.Finite? ==> r.v + b.v == a.v
  {
    if a.Finite? && b.Finite? then Finite(a.v - b.v) else NaN
  }

  /** The time used to order equal-importance notices: a missing `createdAt`
      counts as time 0. */
  function CreatedTime(n: Notice, parseDate: string -> Num): (t: Num)
    ensures Falsy(n.createdAt) ==> t == Finite(0)
  {
    if Falsy(n.createdAt) then Finite(0) else ToTime(n.createdAt, parseDate)
  }

  /** The page's comparator: the difference of importance ranks when it is not
      zero (NaN is not zero), otherwise `dateB - dateA`. */
  function Compare(a: Notice, b: Notice, parseDate: string -> Num): (c: Num)
    ensures Rank(a.importance).NaN? || Rank(b.importance).NaN? ==> c.NaN?
    ensures Rank(a.importance).Finite? && Rank(b.importance).Finite? && Rank(a.importance) != Rank(b.importance) ==>
      c.Finite? && (c.v < 0 <==> Rank(a.importance).v < Rank(b.importance).v)
    ensures Rank(a.importance).Finite? && Rank(a.importance) == Rank(b.importance) ==>
      (c.Finite? <==> CreatedTime(a, parseDate).Finite? && CreatedTime(b, parseDate).Finite?)
      && (c.Finite? ==> (c.v < 0 <==> CreatedTime(a, parseDate).v > CreatedTime(b, parseDate).v))
  {
    var diff := Sub(Rank(a.importance), Rank(b.importance));
    if diff != Finite(0) then diff
    else Sub(CreatedTime(b, parseDate), CreatedTime(a, parseDate))
  }

  /** How the sort reads a comparator result: NaN counts as "equal". True when
      `a` may stay ahead of `b`. */
  predicate NotAfter(a: Notice, b: Notice, parseDate: string -> Num) {
    var c := Compare(a, b, parseDate);
    c.NaN? || c.v <= 0
  }

  // ---------------------------------------------------------------------------
  // The intended order
  // ---------------------------------------------------------------------------

  /** A notice the comparator orders consistently: known importance and a
      valid creation time. */
  predicate Known(n: Notice, parseDate: string -> Num) {
    Rank(n.importance).Finite? && CreatedTime(n, parseDate).Finite?
  }

  ghost predicate AllKnown(s: seq<Notice>, parseDate: string -> Num) {
    forall i :: 0 <= i < |s| ==> Known(s[i], parseDate)
  }

  /** `a` may precede `b`: higher importance, or the same importance and
      created no earlier. */
  predicate InOrder(a: Notice, b: Notice, parseDate: string -> Num)
    requires Known(a, parseDate) && Known(b, parseDate)
  {
    var ra := Rank(a.importance).v;
    var rb := Rank(b.importance).v;
    ra < rb || (ra == rb && CreatedTime(a, parseDate).v >= CreatedTime(b, parseDate).v)
  }

  ghost predicate Sorted(s: seq<Notice>, parseDate: string -> Num)
    requires AllKnown(s, parseDate)
  {
    forall i, j :: 0 <= i < j < |s| ==> InOrder(s[i], s[j], parseDate)
  }

  /** On known notices the comparator's verdict is the intended order, and it
      is a total order: one of any two notices may precede the other. */
  lemma CompareMeansInOrder(a: Notice, b: Notice, parseDate: string -> Num)
    requires Known(a, parseDate) && Known(b, parseDate)
    ensures NotAfter(a, b, parseDate) <==> InOrder(a, b, parseDate)
    ensures InOrder(a, b, parseDate) || InOrder(b, a, parseDate)
  {
  }

  // ---------------------------------------------------------------------------
  // Sort
  // ---------------------------------------------------------------------------

  /** Puts `x` ahead of the first element it is not after; elements it
      compares equal to stay ahead of it only if they were already there. */
  function Insert(x: Notice, t: seq<Notice>, parseDate: string -> Num): (r: seq<Notice>)
    ensures multiset(r) == multiset(t) + multiset{x}
    ensures |r| == |t| + 1
  {
    if |t| == 0 || NotAfter(x, t[0], parseDate) then [x] + t
    else
      var rest := Insert(x, t[1..], parseDate);
      assert t == [t[0]] + t[1..];
      [t[0]] + rest
  }

  /** A stable insertion sort with the page's comparator. */
  function Sort(s: seq<Notice>, parseDate: string -> Num): (r: seq<Notice>)
    ensures multiset(r) == multiset(s)
    ensures |r| == |s|
  {
    if |s| == 0 then []
    else
      assert s == [s[0]] + s[1..];
      Insert(s[0], Sort(s[1..], parseDate), parseDate)
  }

  /** The displayed list: the kept notices, sorted. */
  function VisibleNotices(list: seq<Notice>, now: int, parseDate: string -> Num): (r: seq<Notice>)
    ensures multiset(r) == multiset(Filter(list, KeepAt(now, parseDate)))
    ensures forall n :: n in r <==> n in list && Keep(n, now, parseDate)
  {
    var kept := Filter(list, KeepAt(now, parseDate));
    var r := Sort(kept, parseDate);
    assert forall n :: n in r <==> n in multiset(r);
    r
  }

  lemma InsertMembers(x: Notice, t: seq<Notice>, parseDate: string -> Num)
    ensures forall n :: n in Insert(x, t, parseDate) <==> n == x || n in t
  {
    var r := Insert(x, t, parseDate);
    assert forall n :: n in r <==> n in multiset(r);
  }

  /** `y` may precede every element of `u`. */
  ghost predicate Leads(y: Notice, u: seq<Notice>, parseDate: string -> Num)
    requires Known(y, parseDate) && AllKnown(u, parseDate)
  {
    forall k :: 0 <= k < |u| ==> InOrder(y, u[k], parseDate)
  }

  /** A list is sorted exactly when its head may precede the rest and the
      rest is sorted. */
  lemma SortedCons(y: Notice, u: seq<Notice>, parseDate: string -> Num)
    requires Known(y, parseDate) && AllKnown(u, parseDate)
    ensures AllKnown([y] + u, parseDate)
    ensures Sorted([y] + u, parseDate) <==> Leads(y, u, parseDate) && Sorted(u, parseDate)
  {
    SortedConsIntro(y, u, parseDate);
    SortedConsElim(y, u, parseDate);
  }

  lemma SortedConsIntro(y: Notice, u: seq<Notice>, parseDate: string -> Num)
    requires Known(y, parseDate) && AllKnown(u, parseDate)
    ensures AllKnown([y] + u, parseDate)
    ensures Leads(y, u, parseDate) && Sorted(u, parseDate) ==> Sorted([y] + u, parseDate)
  {
    var r := [y] + u;
    assert forall k :: 0 <= k < |u| ==> r[k + 1] == u[k];
    if Leads(y, u, parseDate) && Sorted(u, parseDate) {
      forall i, j | 0 <= i < j < |r| ensures InOrder(r[i], r[j], parseDate) {
        assert r[j] == u[j - 1];
        if i == 0 {
          assert InOrder(y, u[j - 1], parseDate);
        } else {
          assert r[i] == u[i - 1];
          assert InOrder(u[i - 1], u[j - 1], parseDate);
        }
      }
    }
  }

  lemma SortedConsElim(y: Notice, u: seq<Notice>, parseDate: string -> Num)
    requires Known(y, parseDate) && AllKnown(u, parseDate) && AllKnown([y] + u, parseDate)
    ensures Sorted([y] + u, parseDate) ==> Leads(y, u, parseDate) && Sorted(u, parseDate)
  {
    var r := [y] + u;
    if Sorted(r, parseDate) {
      forall k | 0 <= k < |u| ensures InOrder(y, u[k], parseDate) {
        assert r[0] == y && r[k + 1] == u[k];
      }
      forall i, j | 0 <= i < j < |u| ensures InOrder(u[i], u[j], parseDate) {
        assert r[i + 1] == u[i] && r[j + 1] == u[j];
      }
    }
  }

  lemma InOrderTransitive(a: Notice, b: Notice, c: Notice, parseDate: string -> Num)
    requires Known(a, parseDate) && Known(b, parseDate) && Known(c, parseDate)
    requires InOrder(a, b, parseDate) && InOrder(b, c, parseDate)
    ensures InOrder(a, c, parseDate)
  {
  }

  /** Whatever leads a list leads the list with a notice it leads inserted. */
  lemma LeadsInsert(y: Notice, x: Notice, u: seq<Notice>, parseDate: string -> Num)
    requires Known(y, parseDate) && Known(x, parseDate) && AllKnown(u, parseDate)
    requires Leads(y, u, parseDate) && InOrder(y, x, parseDate)
    ensures AllKnown(Insert(x, u, parseDate), parseDate)
    ensures Leads(y, Insert(x, u, parseDate), parseDate)
  {
    var r := Insert(x, u, parseDate);
    InsertMembers(x, u, parseDate);
    forall k | 0 <= k < |r| ensures Known(r[k], parseDate) && InOrder(y, r[k], parseDate) {
      assert r[k] in r;
      if r[k] != x {
        var m :| 0 <= m < |u| && u[m] == r[k];
      }
    }
  }

  /** Inserting a known notice into a sorted list of known notices keeps it sorted. */
  lemma {:induction false} InsertSorted(x: Notice, t: seq<Notice>, parseDate: string -> Num)
    requires Known(x, parseDate) && AllKnown(t, parseDate) && Sorted(t, parseDate)
    ensures AllKnown(Insert(x, t, parseDate), parseDate)
    ensures Sorted(Insert(x, t, parseDate), parseDate)
    decreases |t|
  {
    if |t| == 0 {
      assert Insert(x, t, parseDate) == [x];
    } else {
      var y, u := t[0], t[1..];
      assert t == [y] + u;
      SortedCons(y, u, parseDate);
      CompareMeansInOrder(x, y, parseDate);
      if NotAfter(x, y, parseDate) {
        forall k | 0 <= k < |t| ensures InOrder(x, t[k], parseDate) {
          if k > 0 {
            InOrderTransitive(x, y, t[k], parseDate);
          }
        }
        SortedCons(x, t, parseDate);
      } else {
        InsertSorted(x, u, parseDate);
        LeadsInsert(y, x, u, parseDate);
        SortedCons(y, Insert(x, u, parseDate), parseDate);
      }
    }
  }

  /** When every notice has a known importance and a valid creation time, the
      sorted list is in the intended order. */
  lemma {:induction false} SortSorted(s: seq<Notice>, parseDate: string -> Num)
    requires AllKnown(s, parseDate)
    ensures AllKnown(Sort(s, parseDate), parseDate)
    ensures Sorted(Sort(s, parseDate), parseDate)
  {
    if |s| > 0 {
      assert AllKnown(s[1..], parseDate) by {
        forall i | 0 <= i < |s| - 1 ensures Known(s[1..][i], parseDate) {
          assert s[1..][i] == s[i + 1];
        }
      }
      SortSorted(s[1..], parseDate);
      InsertSorted(s[0], Sort(s[1..], parseDate), parseDate);
    }
  }

  /** The displayed list when every kept notice is known: exactly the kept
      notices, each once as often as it was sent, in the intended order. */
  lemma VisibleNoticesOrdered(list: seq<Notice>, now: int, parseDate: string -> Num)
    requires forall n :: n in list && Keep(n, now, parseDate) ==> Known(n, parseDate)
    ensures AllKnown(VisibleNotices(list, now, parseDate), parseDate)
    ensures Sorted(VisibleNotices(list, now, parseDate), parseDate)
  {
    var kept := Filter(list, KeepAt(now, parseDate));
    assert AllKnown(kept, parseDate) by {
      forall i | 0 <= i < |kept| ensures Known(kept[i], parseDate) {
        assert kept[i] in kept;
      }
    }
    SortSorted(kept, parseDate);
  }

  /** Notices with no deadline always stay; others stay exactly while their
      deadline is in the future. */
  lemma KeepRule(n: Notice, now: int, parseDate: string -> Num)
    ensures Falsy(n.deadline) ==> n in VisibleNotices([n], now, parseDate)
    ensures !Falsy(n.deadline) ==>
      (n in VisibleNotices([n], now, parseDate) <==> Gt(ToTime(n.deadline, parseDate), Finite(now)))
  {
  }
}

=== FILE: seqs.dfy ===
/** Sequence helpers shared by the backend routes and the frontend views. */
module Seqs {

  /** `a` is `b` with some elements deleted: the elements of `a` occur in `b`
      in the same relative order. */
  predicate Subseq<T(==)>(a: seq<T>, b: seq<T>)
    decreases |b|
  {
    |a| == 0 ||
    (|b| > 0 && ((a[0] == b[0] && Subseq(a[1..], b[1..])) || Subseq(a, b[1..])))
  }

  /** No value occurs twice. */
  ghost predicate NoDuplicates<T(!new)>(s: seq<T>) {
    forall x :: multiset(s)[x] <= 1
  }

  /** JavaScript's `Array.prototype.filter`: the elements of `s` that satisfy
      `keep`, each as often as in `s`, in their original order. */
  function Filter<T(==,!new)>(s: seq<T>, keep: T -> bool): (r: seq<T>)
    ensures |r| <= |s|
    ensures Subseq(r, s)
    ensures forall x :: multiset(r)[x] == if keep(x) then multiset(s)[x] else 0
    ensures forall x :: x in r <==> x in s && keep(x)
  {
    if |s| == 0 then []
    else
      assert s == [s[0]] + s[1..];
      var rest := Filter(s[1..], keep);
      if keep(s[0]) then
        assert ([s[0]] + rest)[1..] == rest;
        [s[0]] + rest
      else rest
  }

  /** Filtering distributes over concatenation. */
  lemma {:induction false} FilterAppend<T(!new)>(a: seq<T>, b: seq<T>, keep: T -> bool)
    ensures Filter(a + b, keep) == Filter(a, keep) + Filter(b, keep)
  {
    if |a| == 0 {
      assert a + b == b;
    } else {
      assert (a + b)[0] == a[0];
      assert (a + b)[1..] == a[1..] + b;
      FilterAppend(a[1..], b, keep);
    }
  }

  /** Filtering a one-element sequence keeps the element exactly when `keep` holds. */
  lemma FilterSingleton<T(!new)>(x: T, keep: T -> bool)
    ensures Filter([x], keep) == if keep(x) then [x] else []
  {
    assert [x][1..] == [];
  }

  /** Filtering with a stronger condition after a weaker one is the same as
      filtering with the stronger one alone; in particular filtering twice with
      the same condition is filtering once. */
  lemma {:induction false} FilterNested<T(!new)>(s: seq<T>, outer: T -> bool, inner: T -> bool)
    requires forall x :: inner(x) ==> outer(x)
    ensures Filter(Filter(s, outer), inner) == Filter(s, inner)
  {
    if |s| > 0 {
      FilterNested(s[1..], outer, inner);
      if outer(s[0]) {
        assert ([s[0]] + Filter(s[1..], outer))[1..] == Filter(s[1..], outer);
      }
    }
  }

  /** A filter that keeps nothing of `s` yields the empty sequence. */
  lemma FilterNone<T(!new)>(s: seq<T>, keep: T -> bool)
    requires forall x :: x in s ==> !keep(x)
    ensures Filter(s, keep) == []
  {
  }
}

=== FILE: wrappers.dfy ===
/** Optional values: the model's stand-in for JavaScript's `null`/`undefined`. */
module Wrappers {

  datatype Option<+T> = None | Some(value: T)
}
